=== FILE: README.md ===
# Arrangeable table: a Dafny model

This project models the drag-and-drop grid of the grapier DragDrop
library. Its centre is `ArrangeableTable`, a rows x cols grid of cells. Each
cell is empty or holds one widget, and a widget -> position map is kept
beside the grid. The model covers:

- **Moves and squeeze strategies.** `moveWidget` puts a widget on a cell.
  The cell's previous occupant is pushed where the squeeze strategy says:
  back to the vacated cell (swap), or one step up or left if there is room
  before it in its lane, else one step down or right. The push cascades
  until an empty cell is reached.
- **Compaction.** A row-major pass slides every widget except the shadow to
  the first empty cell above it (vertical) or to its left (horizontal).
- **Trimming.** Empty rows at the bottom and empty columns at the right are
  dropped, never below the configured minimum.
- **The drag session.** Starting a drag puts a fresh *shadow* placeholder
  where the dragged widget was. Hovering moves the shadow and compacts.
  Dropping puts the dragged widget where the shadow is, then trims and
  compacts.
- **Around the table:**
  - `DragDropListener`: throttled, edge-triggered hit-testing of drop targets;
  - `Position`: the coordinate type, whose `equals` and `hashCode` go through
    its `"(row,col)"` string;
  - the clamp of `ConstrainedDragMoveListener`;
  - the pure helpers of `DomUtils`.

Modules and files:

| file | module | what |
|---|---|---|
| wrappers.dfy | Wrappers | `Option` (Java null) and `Result` (a Java exception) |
| position.dfy | Positions | `Position`, its string form, `equals`, `hashCode` |
| grid.dfy | Grid | the table state, its invariants, resizing, `setWidget`, `removeWithoutCompacting` |
| moves.dfy | Moves | room tests, squeeze strategies, the cascading `moveWidget` |
| cascade.dfy | Cascade | proofs that a move settles and loses nobody |
| compaction.dfy | Compaction | `compactVertically` / `compactHorizontally` |
| trimming.dfy | Trimming | `removeEmptyRowsFromBottom` / `removeEmptyColumnsFromRight` |
| arrangeable.dfy | Arrangeable | constructor, `addWidget`, `remove`, the drag session |
| listener.dfy | Listener | `DragDropListener` |
| clamp.dfy | Clamp | `ConstrainedDragMoveListener.setAbsolutePosition` |
| domutils.dfy | DomUtils | `join`, `nullSafeEquals`, `newList(Object[])` |

The table is an immutable `Table`:

- `cells` is a map whose missing keys are empty cells;
- `index` is the widget map, whose entries may be stale;
- `config` holds the constructor's settings;
- `shadow` and `dragged` are the session fields.

`WF` says every occupied cell is in bounds and the map records it.
`Consistent` adds that no map entry is stale. `Idle` and `Dragging` are the
invariants between and during drag sessions.

A Java exception is a `Failure`. A dereference of a null position is
`NullPointer`; a cell outside the grid, or a negative grid size, is
`IndexOutOfBounds`. `moveWidget` recurses with no bound in Java. Here it
takes a fuel argument. `MoveFuel` is enough fuel when the moved widget is in
the grid of a well-formed table and moves from the cell the map records for
it (`Cascade.MoveSettles`). Every call in `ArrangeableTable` is of that
kind: the shadow move starts from `findWidget(shadowWidget)`, and the
compaction passes move the occupant of the cell they start from.

Source paths below are relative to the repository root.

## Model

| member | source | states |
|---|---|---|
| Positions.AddRow | DragDrop/src/com/grapier/gwt/client/util/Position.java:44-46 | only the row changes, by +1 |
| Positions.SubtractRow | DragDrop/src/com/grapier/gwt/client/util/Position.java:48-50 | only the row changes, by -1 |
| Positions.AddCol | DragDrop/src/com/grapier/gwt/client/util/Position.java:52-54 | only the column changes, by +1 |
| Positions.SubtractCol | DragDrop/src/com/grapier/gwt/client/util/Position.java:56-58 | only the column changes, by -1 |
| Positions.NeighboursInverse | DragDrop/src/com/grapier/gwt/client/util/Position.java:44-58 | subtractRow undoes addRow and vice versa; the same for columns |
| Positions.SubtractRowBelowZero | DragDrop/src/com/grapier/gwt/client/util/Position.java:48-50 | there is no bounds check: above row 0 is row -1 |
| Positions.ParseIntRoundTrip | DragDrop/src/com/grapier/gwt/client/util/Position.java:37 | the decimal rendering of an int reads back as that int |
| Positions.ToStringRoundTrip | DragDrop/src/com/grapier/gwt/client/util/Position.java:36-38 | "(row,col)" reads back as the position |
| Positions.ToStringInjective | DragDrop/src/com/grapier/gwt/client/util/Position.java:36-38 | two positions have the same string exactly when they are equal |
| Positions.EqualsIffSameCoordinates | DragDrop/src/com/grapier/gwt/client/util/Position.java:20-34 | equals holds iff rows and columns agree |
| Positions.EqualsReflexive | DragDrop/src/com/grapier/gwt/client/util/Position.java:20-31 | equals is reflexive and false for null and for non-Position objects |
| Positions.WrapInt32 | DragDrop/src/com/grapier/gwt/client/util/Position.java:41 | 32-bit wrap-around: in the int range, congruent mod 2^32 |
| Positions.EqualsImpliesSameHash | DragDrop/src/com/grapier/gwt/client/util/Position.java:20-42 | equal positions have equal hash codes |
| Grid.GetWidget | trunk/DragDrop/src/com/grapier/gwt/client/ui/dragdrop/ArrangeableTable.java:142-144 | a cell outside the grid throws IndexOutOfBounds, and only such a cell does; otherwise a widget exactly for an occupied cell, and it is the occupant |
| Grid.EmptyIffNoWidget | trunk/DragDrop/src/com/grapier/gwt/client/ui/dragdrop/ArrangeableTable.java:600-606 | isCellEmpty holds iff getWidget succeeds with null; an occupied cell of a well-formed table gives its occupant |
| Grid.ConsistentIffItems | trunk/DragDrop/src/com/grapier/gwt/client/ui/dragdrop/ArrangeableTable.java:78 | no stale map entry iff every mapped widget is in the grid |
| Grid.InGridIffHeld | trunk/DragDrop/src/com/grapier/gwt/client/ui/dragdrop/ArrangeableTable.java:78 | on a well-formed table, the map finds a widget in the grid iff some cell holds it |
| Grid.ConsistentIsBidirectional | trunk/DragDrop/src/com/grapier/gwt/client/ui/dragdrop/ArrangeableTable.java:78 | a consistent map and the grid agree both ways |
| Grid.ResizeRows | trunk/DragDrop/src/com/grapier/gwt/client/ui/dragdrop/ArrangeableTable.java:546-549 | rows from n on are dropped with their contents, other cells kept, well-formedness kept |
| Grid.ResizeColumns | trunk/DragDrop/src/com/grapier/gwt/client/ui/dragdrop/ArrangeableTable.java:555-558 | columns from n on are dropped, other cells kept, well-formedness kept |
| Grid.DropTargets | trunk/DragDrop/src/com/grapier/gwt/client/ui/dragdrop/ArrangeableTable.java:563-573 | one target per cell, rows*cols of them, in strict row-major order |
| Grid.EnsurePositionExists | trunk/DragDrop/src/com/grapier/gwt/client/ui/dragdrop/ArrangeableTable.java:448-456 | afterwards the position is inside; counts never shrink and grow only when needed; cells untouched |
| Grid.EnsureIsResize | trunk/DragDrop/src/com/grapier/gwt/client/ui/dragdrop/ArrangeableTable.java:448-456 | growing is the two resizes, rows first, to p+1; well-formedness kept |
| Grid.DetachSpec | trunk/DragDrop/src/com/grapier/gwt/client/ui/dragdrop/ArrangeableTable.java:194 | re-parenting a widget empties its old cell and no other |
| Grid.SetWidget | trunk/DragDrop/src/com/grapier/gwt/client/ui/dragdrop/ArrangeableTable.java:192-196 | the widget is in the cell and the map records the cell; the grid holds the cell |
| Grid.SetWidgetFrame | trunk/DragDrop/src/com/grapier/gwt/client/ui/dragdrop/ArrangeableTable.java:192-196 | no other map entry changes; only the target cell and the widget's old cell change; WF kept |
| Grid.RemoveWithoutCompacting | trunk/DragDrop/src/com/grapier/gwt/client/ui/dragdrop/ArrangeableTable.java:461-469 | a widget not in the grid leaves the table unchanged; afterwards it is not in the grid |
| Grid.RemoveWithoutCompactingSpec | trunk/DragDrop/src/com/grapier/gwt/client/ui/dragdrop/ArrangeableTable.java:461-469 | reports true iff some cell held the widget; only that cell and map entry go; WF kept |
| Grid.FindWidget | trunk/DragDrop/src/com/grapier/gwt/client/ui/dragdrop/ArrangeableTable.java:150-152 | null exactly for an unmapped widget, else the recorded position |
| Grid.SetThenFind | trunk/DragDrop/src/com/grapier/gwt/client/ui/dragdrop/ArrangeableTable.java:150-196 | after setWidget, findWidget and getWidget give the position and the widget back, without a bounds fault |
| Moves.RoomFromSpec | trunk/DragDrop/src/com/grapier/gwt/client/ui/dragdrop/ArrangeableTable.java:475-499 | the backward scan finds room iff some cell at depth 0..d of the lane is empty |
| Moves.IsRoomBeforeSpec | trunk/DragDrop/src/com/grapier/gwt/client/ui/dragdrop/ArrangeableTable.java:475-499 | room iff some in-bounds cell strictly before p in its lane is empty |
| Moves.IsRoomAbove | trunk/DragDrop/src/com/grapier/gwt/client/ui/dragdrop/ArrangeableTable.java:475-484 | true iff an empty cell lies above in the column; true implies row >= 1 |
| Moves.IsRoomToLeft | trunk/DragDrop/src/com/grapier/gwt/client/ui/dragdrop/ArrangeableTable.java:490-499 | true iff an empty cell lies to the left in the row; true implies col >= 1 |
| Moves.SqueezedToSpec | trunk/DragDrop/src/com/grapier/gwt/client/ui/dragdrop/ArrangeableTable.java:44-70 | swap gives oldPosition; vertical goes up one row iff there is room above, else down; horizontal likewise |
| Moves.PlacedKeepsWF | trunk/DragDrop/src/com/grapier/gwt/client/ui/dragdrop/ArrangeableTable.java:423-435 | the grow/remove/set steps of a move keep the table well-formed |
| Moves.MoveWidget | trunk/DragDrop/src/com/grapier/gwt/client/ui/dragdrop/ArrangeableTable.java:422-443 | a finished move grows the grid to hold newPosition and keeps the settings |
| Moves.MoveKeepsWF | trunk/DragDrop/src/com/grapier/gwt/client/ui/dragdrop/ArrangeableTable.java:422-443 | every table a move produces is well-formed |
| Cascade.PlacedEffect | trunk/DragDrop/src/com/grapier/gwt/client/ui/dragdrop/ArrangeableTable.java:423-435 | the first steps in closed form; the pushed widget is the target cell's occupant after the removal |
| Cascade.MoveOntoFree | trunk/DragDrop/src/com/grapier/gwt/client/ui/dragdrop/ArrangeableTable.java:432-437 | a move onto a free cell pushes nobody away |
| Cascade.PlacedItem | trunk/DragDrop/src/com/grapier/gwt/client/ui/dragdrop/ArrangeableTable.java:423-435 | after placing, the widget is mapped and in the grid; the pushed occupant is mapped but out of the grid |
| Cascade.MoveKeepsItem | trunk/DragDrop/src/com/grapier/gwt/client/ui/dragdrop/ArrangeableTable.java:422-443 | after a cascade, a widget is mapped (in the grid) iff it was before or is the moved one |
| Cascade.MoveKeepsItems | trunk/DragDrop/src/com/grapier/gwt/client/ui/dragdrop/ArrangeableTable.java:422-443 | the map's widgets and the grid's widgets only gain the moved widget |
| Cascade.ChainBack | trunk/DragDrop/src/com/grapier/gwt/client/ui/dragdrop/ArrangeableTable.java:437-442 | with room behind, the backward push cascade finishes within depth+1 moves |
| Cascade.ChainBackFrame | trunk/DragDrop/src/com/grapier/gwt/client/ui/dragdrop/ArrangeableTable.java:437-442 | the backward cascade leaves other lanes, and cells past the start, alone |
| Cascade.ChainForward | trunk/DragDrop/src/com/grapier/gwt/client/ui/dragdrop/ArrangeableTable.java:437-456 | with no room behind, the forward cascade finishes, growing the grid at the end |
| Cascade.ChainForwardFrame | trunk/DragDrop/src/com/grapier/gwt/client/ui/dragdrop/ArrangeableTable.java:437-442 | the forward cascade leaves other lanes, and cells before the start, alone |
| Cascade.NoRoomPastOccupied | trunk/DragDrop/src/com/grapier/gwt/client/ui/dragdrop/ArrangeableTable.java:475-499 | no room before an occupied cell means no room before the next cell |
| Cascade.RestBySwap | trunk/DragDrop/src/com/grapier/gwt/client/ui/dragdrop/ArrangeableTable.java:66-70 | with swap, the pushed widget lands on the vacated cell |
| Cascade.MoveSettles | trunk/DragDrop/src/com/grapier/gwt/client/ui/dragdrop/ArrangeableTable.java:422-443 | for every strategy the move finishes: widget at newPosition, pushed occupant at its squeeze position, WF, same widgets |
| Compaction.FirstEmptyFrom | trunk/DragDrop/src/com/grapier/gwt/client/ui/dragdrop/ArrangeableTable.java:382-415 | the found cell is empty, in the lane and range, and the first such; none found means no empty cell |
| Compaction.FirstEmptyIsRoom | trunk/DragDrop/src/com/grapier/gwt/client/ui/dragdrop/ArrangeableTable.java:382-415 | the search finds a cell iff isRoomAbove / isRoomToLeft hold |
| Compaction.MoveOntoEmpty | trunk/DragDrop/src/com/grapier/gwt/client/ui/dragdrop/ArrangeableTable.java:374 | moving a widget onto an empty cell is a single slide |
| Compaction.SlideKeeps | trunk/DragDrop/src/com/grapier/gwt/client/ui/dragdrop/ArrangeableTable.java:374 | a slide keeps WF, dimensions and every widget |
| Compaction.CompactCellSpec | trunk/DragDrop/src/com/grapier/gwt/client/ui/dragdrop/ArrangeableTable.java:368-376 | a non-shadow occupant with an empty cell before it slides to the first one, else nothing changes |
| Compaction.SlideInLanes | trunk/DragDrop/src/com/grapier/gwt/client/ui/dragdrop/ArrangeableTable.java:372-375 | a slide to the first empty cell before a widget keeps it in its lane and moves it towards the front |
| Compaction.CompactRow | trunk/DragDrop/src/com/grapier/gwt/client/ui/dragdrop/ArrangeableTable.java:367-378 | one row of a pass keeps the pass invariant: widgets stay in their lane, no deeper, and every cell of the row is visited |
| Compaction.CompactAlong | trunk/DragDrop/src/com/grapier/gwt/client/ui/dragdrop/ArrangeableTable.java:365-406 | afterwards no widget but the shadow has a gap before it; every widget stays in its column (row) and only moves towards its front; shadow and widgets kept; a compacted table is unchanged |
| Compaction.CompactWidgets | trunk/DragDrop/src/com/grapier/gwt/client/ui/dragdrop/ArrangeableTable.java:355-363 | each configured pass runs; its property holds; under one pass every widget stays in its lane, no deeper; under both, no widget ends lower or further right; with no flag the table is unchanged |
| Trimming.IsLineEmpty | trunk/DragDrop/src/com/grapier/gwt/client/ui/dragdrop/ArrangeableTable.java:575-591 | true iff no cell of the row (column) holds a widget |
| Trimming.TrimmedToUnique | trunk/DragDrop/src/com/grapier/gwt/client/ui/dragdrop/ArrangeableTable.java:509-540 | the trimming rule fixes the resulting count |
| Trimming.ResizeDropsNothing | trunk/DragDrop/src/com/grapier/gwt/client/ui/dragdrop/ArrangeableTable.java:519-521 | cutting off empty lines keeps every cell |
| Trimming.RemoveEmptyFringe | trunk/DragDrop/src/com/grapier/gwt/client/ui/dragdrop/ArrangeableTable.java:509-540 | only empty trailing lines go; stops at a non-empty line or at the minimum; cells and map kept |
| Trimming.RemoveEmptyRowsAndColumnsFromFringes | trunk/DragDrop/src/com/grapier/gwt/client/ui/dragdrop/ArrangeableTable.java:501-504 | rows trimmed, then columns; the minimum is kept; a last row (column) above the minimum holds a widget |
| Arrangeable.NewTable | trunk/DragDrop/src/com/grapier/gwt/client/ui/dragdrop/ArrangeableTable.java:124-140 | a negative minRows or minCols throws IndexOutOfBounds, and only then; otherwise a minRows x minCols grid of empty cells with the given settings, idle, no widgets |
| Arrangeable.GetNextEmptyCellPosition | trunk/DragDrop/src/com/grapier/gwt/client/ui/dragdrop/ArrangeableTable.java:159-168 | the first empty cell in row-major order, or (rowCount, 0) when every cell is taken |
| Arrangeable.SetWidgetItems | trunk/DragDrop/src/com/grapier/gwt/client/ui/dragdrop/ArrangeableTable.java:192-196 | the widget joins map and grid; the replaced occupant leaves the grid but stays mapped |
| Arrangeable.NextEmptyCellUnique | trunk/DragDrop/src/com/grapier/gwt/client/ui/dragdrop/ArrangeableTable.java:159-168 | only one position is the first empty cell in row-major order (or the first cell below a full grid) |
| Arrangeable.AddWidget | trunk/DragDrop/src/com/grapier/gwt/client/ui/dragdrop/ArrangeableTable.java:170-176 | the widget lands on the next empty cell in row-major order, or the first cell of a new row when the grid is full; no other widget disturbed |
| Arrangeable.RemoveLeavesGrid | trunk/DragDrop/src/com/grapier/gwt/client/ui/dragdrop/ArrangeableTable.java:461-469 | removing a widget of the grid drops it from map and grid and keeps every other widget, the size and the settings; any other widget changes nothing |
| Arrangeable.CompactAndTrim | trunk/DragDrop/src/com/grapier/gwt/client/ui/dragdrop/ArrangeableTable.java:213-214 | compaction then trimming: widgets only move up or left, not at all with no flag; the configured compaction holds; a last line above the minimum is occupied |
| Arrangeable.TrimAndCompact | trunk/DragDrop/src/com/grapier/gwt/client/ui/dragdrop/ArrangeableTable.java:317-318 | trimming then compaction: the size follows the trimming rule on the input; widgets only move up or left, not at all with no flag; the configured compaction holds |
| Arrangeable.Remove | trunk/DragDrop/src/com/grapier/gwt/client/ui/dragdrop/ArrangeableTable.java:210-217 | true iff the widget was in the grid; false changes nothing; else it alone goes; with no compaction every other widget keeps its cell, otherwise widgets only move up or left (within their lane under one pass) and the configured compaction holds; the grid never grows, and a last row (column) above the minimum holds a widget |
| Arrangeable.StartDragging | trunk/DragDrop/src/com/grapier/gwt/client/ui/dragdrop/ArrangeableTable.java:278-299 | an unmapped widget is a null dereference; else the shadow takes the widget's cell |
| Arrangeable.StartDraggingBegins | trunk/DragDrop/src/com/grapier/gwt/client/ui/dragdrop/ArrangeableTable.java:278-299 | from an idle table a drag session begins; the shadow replaces the widget in the grid |
| Arrangeable.ShadowMoveSettles | trunk/DragDrop/src/com/grapier/gwt/client/ui/dragdrop/ArrangeableTable.java:344 | in a session, moving the shadow finishes with the shadow on the new cell, still a session |
| Arrangeable.MoveShadowWidgetAndCompact | trunk/DragDrop/src/com/grapier/gwt/client/ui/dragdrop/ArrangeableTable.java:335-348 | no shadow is a null dereference; in a session the shadow ends on the cell and the session goes on; a move to the shadow's own cell changes nothing; any other leaves the table compacted as configured, and with no compaction the displaced widget lands on its squeeze cell |
| Arrangeable.HoverOverDropTarget | trunk/DragDrop/src/com/grapier/gwt/client/ui/dragdrop/ArrangeableTable.java:325-330 | a null target does nothing; otherwise the shadow moves onto the target's cell and, if it moved, the table is compacted as configured, or with no compaction the displaced widget lands on its squeeze cell |
| Arrangeable.SetDownEndsSession | trunk/DragDrop/src/com/grapier/gwt/client/ui/dragdrop/ArrangeableTable.java:307-314 | replacing the shadow with the dragged widget ends the session with a consistent table and the dragged widget on the shadow's cell |
| Arrangeable.LandsNoFurther | trunk/DragDrop/src/com/grapier/gwt/client/ui/dragdrop/ArrangeableTable.java:317-318 | a widget that compaction can only slide up or left ends no lower and no further right than its cell, in its lane under one pass, on it with none |
| Arrangeable.DropDraggedWidget | trunk/DragDrop/src/com/grapier/gwt/client/ui/dragdrop/ArrangeableTable.java:304-319 | no shadow is a null dereference; in a session the table ends idle with the shadow gone and the dragged widget on the shadow's cell with no compaction, in its lane no deeper under one pass, and never lower or further right; other widgets keep their cells with no compaction; the configured compaction holds; the size follows the trimming rule applied just after the set-down |
| Listener.NewListener | DragDrop/src/com/grapier/gwt/client/ui/dragdrop/DragDropListener.java:55-60 | counter zero and no active target |
| Listener.EdgesAreOutside | DragDrop/src/com/grapier/gwt/client/ui/dragdrop/DragDropListener.java:127-129 | points on any edge are outside; boxes under two pixels hold nothing |
| Listener.CornerIsInside | DragDrop/src/com/grapier/gwt/client/ui/dragdrop/DragDropListener.java:127-129 | a box of two pixels or more holds the point inside its corner |
| Listener.FirstHitFrom | DragDrop/src/com/grapier/gwt/client/ui/dragdrop/DragDropListener.java:103-108 | the first target from i on whose box holds the point, or none holds it |
| Listener.FindHoverWidget | DragDrop/src/com/grapier/gwt/client/ui/dragdrop/DragDropListener.java:91-110 | a found target holds the scrolled point; the active one is kept if it does; null iff none holds it |
| Listener.FindHoverFirstInOrder | DragDrop/src/com/grapier/gwt/client/ui/dragdrop/DragDropListener.java:99-108 | without the active target, the first target in list order that holds the point is found |
| Listener.FindHoverStable | DragDrop/src/com/grapier/gwt/client/ui/dragdrop/DragDropListener.java:99-101 | searching again with the found target active finds it again |
| Listener.ScrollShiftsMouse | DragDrop/src/com/grapier/gwt/client/ui/dragdrop/DragDropListener.java:96-97 | scroll offsets are added to the mouse before any hit test |
| Listener.Drag | DragDrop/src/com/grapier/gwt/client/ui/dragdrop/DragDropListener.java:62-75 | counts calls up to the interval; then hit-tests, resets, and reports a hover only on a change |
| Listener.EndDragging | DragDrop/src/com/grapier/gwt/client/ui/dragdrop/DragDropListener.java:77-81 | exactly one drop event, naming the findHoverWidget result: a target holding the point, null iff none holds it; active target cleared |
| Listener.DropAfterCheck | DragDrop/src/com/grapier/gwt/client/ui/dragdrop/DragDropListener.java:62-81 | a drop at the point of the last hit-test reports the target that hit-test left active |
| Listener.DragAllHoversChange | DragDrop/src/com/grapier/gwt/client/ui/dragdrop/DragDropListener.java:62-75 | over any run of drags no hover repeats the previous target; the active target is the last reported |
| Listener.ChecksEvery12 | DragDrop/src/com/grapier/gwt/client/ui/dragdrop/DragDropListener.java:62-75 | of n drag calls from counter c, (n+c)/12 hit-test, the counter ends at (n+c) mod 12, and no more hovers are reported than hit-tests made |
| Listener.CounterCarriesOver | DragDrop/src/com/grapier/gwt/client/ui/dragdrop/DragDropListener.java:83-85 | startDragging keeps the counter, so drags across a new start count as one run |
| Clamp.ClampAxis | trunk/DragDrop/src/com/grapier/gwt/client/ui/dragdrop/ConstrainedDragMoveListener.java:21 | at most W-w; at least 0 when the widget fits; in range passes through; too wide gives W-w |
| Clamp.ClampOutsideToEdges | trunk/DragDrop/src/com/grapier/gwt/client/ui/dragdrop/ConstrainedDragMoveListener.java:16-21 | when the widget fits, negative goes to 0 and past the end goes to W-w |
| Clamp.ClampMonotoneIdempotent | trunk/DragDrop/src/com/grapier/gwt/client/ui/dragdrop/ConstrainedDragMoveListener.java:21 | the clamp keeps order and is idempotent |
| Clamp.SetAbsolutePosition | trunk/DragDrop/src/com/grapier/gwt/client/ui/dragdrop/ConstrainedDragMoveListener.java:15-24 | the widget never reaches past the right or bottom edge; it starts inside when it fits; an in-range coordinate passes through |
| Clamp.AxesIndependent | trunk/DragDrop/src/com/grapier/gwt/client/ui/dragdrop/ConstrainedDragMoveListener.java:18-22 | left does not depend on top or heights, nor top on left or widths |
| DomUtils.JoinSnoc | trunk/DragDrop/src/com/grapier/gwt/client/util/DomUtils.java:70-75 | join(xs + [y]) is join(xs) + delimiter + y for non-empty xs |
| DomUtils.JoinLength | trunk/DragDrop/src/com/grapier/gwt/client/util/DomUtils.java:67-78 | join of nothing is ""; n strings give their letters and exactly n-1 delimiters |
| DomUtils.JoinStartsWithFirst | trunk/DragDrop/src/com/grapier/gwt/client/util/DomUtils.java:70-75 | the first string leads, with a delimiter after it when more follow |
| DomUtils.Join | trunk/DragDrop/src/com/grapier/gwt/client/util/DomUtils.java:67-78 | a null element throws; else the strings with a delimiter between each pair; a null delimiter reads "null" |
| DomUtils.NullSafeEquals | trunk/DragDrop/src/com/grapier/gwt/client/util/DomUtils.java:41-47 | null equals only null; a non-null object asks its equals |
| DomUtils.NullSafeEqualsIsEquivalence | trunk/DragDrop/src/com/grapier/gwt/client/util/DomUtils.java:41-47 | on positions and other objects: reflexive, symmetric, transitive, and equal iff same coordinates or same object |
| DomUtils.NewList | trunk/DragDrop/src/com/grapier/gwt/client/util/DomUtils.java:90-96 | the list has the array's length and elements in order |

## Left out

- GWT and the DOM are not modelled:
  - the `Grid`/`HTMLTable` cell elements, `setHTML`;
  - styles, `styleWidgetForDrag` and `styleWidgetForDrop`;
  - drop-target elements and cell sizes.
  The underlying grid's `setWidget`, `remove` and `resize*` are modelled by
  their effect on cells. A widget set into a cell first leaves its old cell,
  since a widget has one parent. The re-entrant `removeFromParent` that
  `RootPanel.get().add` triggers is modelled only by its intended effect:
  the dragged widget leaves the grid and keeps its map entry.
- `DragDrop.java`, `DragMoveListener` and `DragPositionMoveListener` are not
  modelled: they are demo wiring and pixel plumbing. The drag listeners that
  call into the table are also not modelled; the table's session operations
  are called directly.
- Browser values are parameters:
  - the scroll offsets, which the page reads natively;
  - widget boxes;
  - widget and container sizes.
  The handler callbacks of `DragDropListener` are returned as events. Every
  call in a run of drags sees one `Page`.
- The listener's drop targets are one list fixed for a run of drags. In
  Java the listener holds the table's own list, which `fillDropTargets`
  refills whenever the grid is resized, so a hover that grows or trims the
  grid changes the targets during the drag. The model does not connect the
  two.
- A thrown exception ends the operation as a `Failure` that carries no
  table, so the state the Java code has already changed before it throws is
  not modelled. In `startDraggingWidget` the fresh shadow is assigned to
  `shadowWidget` before `setWidget` throws on a null position for a widget
  the map does not know. In `dropDraggedWidget` the shadow is already removed
  from the table when `styleWidgetForDrop` throws on a null
  `draggedWidget`. In both the Java table keeps the half-done change.
- Moves.MoveWidget: the recursion takes fuel, and running out is the fault
  `CascadeTooLong`. `Cascade.MoveSettles` shows `MoveFuel` is enough only
  when the widget is in the grid and moves from its recorded cell. Other
  calls can run out. Example: with swap, a 1x3 grid holding 1, 2, 3 and a
  move of 3 "from" (0,0) to (0,1) ping-pongs 2 between the two cells, and
  Java recurses without end. No call in the table is of that kind.
- Arrangeable.DropDraggedWidget: the trim is stated of the table before
  compaction, not of the result. The drop trims before it compacts, so the
  last row or column of the result may be empty again after compaction.
  Example: minimum 1x2, vertical compaction. Add W, X and Z, which fill
  (0,0), (0,1) and (1,0); remove X, which empties (0,1) and moves nothing.
  Drag W and hover over (1,1): the shadow moves there and compaction lifts
  Z to (0,0). The drop sets W at (1,1), the trim keeps row 1, and compaction
  lifts W to (0,1), leaving row 1 empty.
- Compaction.CompactWidgets: with both flags set, only the horizontal
  property is stated. With a shadow in the grid the horizontal pass can open
  a gap above a widget. Example: the shadow at (1,0), (0,0) empty, widgets at
  (0,1) and (1,1). The widget at (0,1) slides left and leaves (0,1) empty
  above (1,1). The case without a shadow is not proved.
- Arrangeable.MoveShadowWidgetAndCompact: a shadow whose recorded cell is
  negative is reported as `IndexOutOfBounds`. This never happens in a drag
  session.
- Arrangeable.MoveShadowWidgetAndCompact: where the displaced widget lands
  is stated only when no compaction is configured. With compaction the
  cascade's squeeze cell is an intermediate state that the following pass
  may slide the widget away from; the result is stated by the compaction
  property alone.
- Arrangeable.HoverOverDropTarget: the same as for the shadow move, which it
  calls.
- Arrangeable.StartDragging: the fresh shadow panel is a parameter that the
  map must not know yet. Its size and style are not modelled.
- Positions.AddRow: rows and columns are unbounded integers, so `row + 1` at
  the largest int does not wrap. The same holds for SubtractRow, AddCol and
  SubtractCol, the clamp's `maxRight - width`, and the listener's
  `mouse + scroll` and `left + width`. The wrap is written out only where it
  shapes a result: `hashCode`.
- DomUtils.Join: a null list, and a null array for `NewList`, are not
  modelled. Elements are given by their `toString` text; a null element is
  `None`.
- DomUtils.NullSafeEquals: objects other than positions compare by
  identity. A class with its own `equals` is not modelled.
- The DomUtils helpers outside `join`, `nullSafeEquals` and
  `newList(Object[])` are not modelled. These are the scroll and offset
  lookups, the cell attribute setters, `newMap` and the click listener, and
  they are browser calls.

=== FILE: arrangeable.dfy ===
/** The public face of `ArrangeableTable`: creating a table, adding and
    removing widgets, and the drag session. A drag session puts a fresh
    shadow placeholder where the dragged widget was, moves the shadow to
    every drop target hovered over, and finally puts the dragged widget where
    the shadow is. Between sessions the table is `Idle`; during one it is
    `Dragging`. A Java exception (a null dereference, or a cell outside the
    grid) is a `Failure`. */
module Arrangeable {
  import opened Wrappers
  import opened Positions
  import opened Grid
  import opened Moves
  import opened Cascade
  import opened Compaction
  import opened Trimming

  /** Between drag sessions: no shadow, no dragged widget, and every widget
      of the map sits where the map says. */
  predicate Idle(t: Table) {
    Consistent(t) && AtLeastMinimum(t) && t.shadow.None? && t.dragged.None?
  }

  /** During a drag session: the shadow is in the grid, the dragged widget
      has left the grid but keeps its map entry, and every other widget of
      the map sits where the map says. */
  predicate Dragging(t: Table) {
    && WF(t) && AtLeastMinimum(t)
    && t.shadow.Some? && t.dragged.Some? && t.shadow.value != t.dragged.value
    && InGrid(t, t.shadow.value) && Pending(t, t.dragged.value)
    && GridItems(t) == t.index.Keys - {t.dragged.value}
  }

  // ---------------------------------------------------------------------
  // Creating and filling a table
  // ---------------------------------------------------------------------

  /** The constructor: a `minRows` x `minCols` grid of empty cells. Resizing
      the grid to a negative number of rows or columns throws
      `IndexOutOfBoundsException`. */
  function NewTable(minRows: int, minCols: int, compactVertically: bool, compactHorizontally: bool,
                    strategy: SqueezeStrategy): (r: Result<Table, Fault>)
    ensures minRows < 0 || minCols < 0 <==> r == Failure(IndexOutOfBounds)
    ensures r.Success? ==>
      && Idle(r.value) && r.value.rows == minRows && r.value.cols == minCols
      && r.value.config == Config(minRows, minCols, compactVertically, compactHorizontally, strategy)
      && r.value.index == map[]
    ensures r.Success? ==> forall p :: IsCellPresent(r.value, p) ==> IsCellEmpty(r.value, p)
  {
    if minRows < 0 || minCols < 0 then Failure(IndexOutOfBounds)
    else
      var config := Config(minRows, minCols, compactVertically, compactHorizontally, strategy);
      Success(Table(config, minRows, minCols, map[], map[], None, None))
  }

  /** `getNextEmptyCellPosition`: the first empty cell in row-major order, or
      the first cell of the row just below the grid when every cell is
      taken. */
  method GetNextEmptyCellPosition(t: Table) returns (p: Position)
    ensures NonNegative(p)
    ensures IsCellEmpty(t, p) || p == Position(t.rows, 0)
    ensures forall q :: IsCellPresent(t, q) && RowMajorLess(q, p) ==> q in t.cells
  {
    var r := 0;
    while r < t.rows
      invariant 0 <= r <= t.rows
      invariant forall q :: IsCellPresent(t, q) && q.row < r ==> q in t.cells
    {
      var c := 0;
      while c < t.cols
        invariant 0 <= c <= t.cols
        invariant forall q :: IsCellPresent(t, q) && RowMajorLess(q, Position(r, c)) ==> q in t.cells
      {
        if IsCellEmpty(t, Position(r, c)) {
          return Position(r, c);
        }
        c := c + 1;
      }
      r := r + 1;
    }
    return Position(t.rows, 0);
  }

  /** `p` is where `getNextEmptyCellPosition` lands: an empty cell, or the
      first cell below a full grid, with every cell before it in row-major
      order taken. */
  ghost predicate NextEmptyCell(t: Table, p: Position) {
    && NonNegative(p)
    && (IsCellEmpty(t, p) || p == Position(t.rows, 0))
    && forall q :: IsCellPresent(t, q) && RowMajorLess(q, p) ==> q in t.cells
  }

  /** At most one position is the next empty cell: the first empty cell in
      row-major order, or the first cell below the grid when none is empty. */
  lemma NextEmptyCellUnique(t: Table, p: Position, q: Position)
    requires NextEmptyCell(t, p) && NextEmptyCell(t, q)
    ensures p == q
  {
  }

  /** What `setWidget` does to the widgets of a well-formed table: `w` joins
      the map and the grid, and the cell's previous occupant, if another
      widget, leaves the grid but keeps its map entry. */
  lemma SetWidgetItems(t: Table, w: Item, p: Position)
    requires WF(t) && NonNegative(p)
    ensures var r := SetWidget(t, w, p);
      && WF(r) && r.index.Keys == t.index.Keys + {w}
      && GridItems(r) == (GridItems(t) - (if p in t.cells && t.cells[p] != w then {t.cells[p]} else {})) + {w}
  {
    var r := SetWidget(t, w, p);
    SetWidgetFrame(t, w, p);
    var gone: set<Item> := if p in t.cells && t.cells[p] != w then {t.cells[p]} else {};
    forall v
      ensures v in GridItems(r) <==> v in (GridItems(t) - gone) + {w}
    {
      if v != w && v in t.index {
        if InGrid(t, v) && v !in gone {
          assert t.index[v] != p;
          assert r.index[v] == t.index[v];
        }
        if InGrid(r, v) {
          assert r.index[v] != p;
        }
      }
    }
  }

  /** `addWidget`: set the widget on the next empty cell. The grid grows by
      a row only when it is full, and no other widget is disturbed. */
  method AddWidget(t: Table, w: Item) returns (r: Table)
    requires WF(t)
    ensures WF(r) && r.index.Keys == t.index.Keys + {w} && GridItems(r) == GridItems(t) + {w}
    ensures InGrid(r, w) && r.cols == (if t.cols == 0 then 1 else t.cols)
    ensures r.rows == t.rows || (r.rows == t.rows + 1 && forall q :: IsCellPresent(t, q) ==> q in t.cells)
    ensures Consistent(t) ==> Consistent(r)
    ensures AtLeastMinimum(t) ==> AtLeastMinimum(r)
    ensures !InGrid(t, w) ==> forall q :: q in t.cells ==> q in r.cells && r.cells[q] == t.cells[q]
    ensures NextEmptyCell(t, r.index[w])
  {
    var p := GetNextEmptyCellPosition(t);
    r := SetWidget(t, w, p);
    SetWidgetItems(t, w, p);
    SetWidgetFrame(t, w, p);
    if Consistent(t) {
      ConsistentIffItems(t);
      ConsistentIffItems(r);
    }
    if p == Position(t.rows, 0) {
      forall q | IsCellPresent(t, q)
        ensures q in t.cells
      {
        assert RowMajorLess(q, p);
      }
    }
  }

  /** Taking a widget of the grid out with `removeWithoutCompacting` drops
      it from the map and the grid and keeps every other widget. */
  lemma RemoveLeavesGrid(t: Table, w: Item)
    requires WF(t)
    ensures var (r, removed) := RemoveWithoutCompacting(t, w);
      && (removed <==> InGrid(t, w)) && WF(r) && !InGrid(r, w)
      && (!removed ==> r == t)
      && (removed ==> r.index.Keys == t.index.Keys - {w} && GridItems(r) == GridItems(t) - {w})
      && (removed ==> r.cells == t.cells - {t.index[w]})
      && r.config == t.config && r.shadow == t.shadow && r.dragged == t.dragged
      && r.rows == t.rows && r.cols == t.cols
  {
    var (r, removed) := RemoveWithoutCompacting(t, w);
    RemoveWithoutCompactingSpec(t, w);
    InGridIffHeld(t, w);
    if removed {
      forall v | v in r.index
        ensures InGrid(r, v) <==> InGrid(t, v)
      {
        assert InGrid(t, v) ==> t.index[v] in r.cells;
      }
    }
  }

  /** The tail of `remove`: compact, then trim the fringes. Widgets only
      slide up or left (and stay in their lane under one configured pass),
      the configured compaction holds, and a last line above the minimum
      holds a widget. With no compaction configured no widget moves. */
  method CompactAndTrim(t0: Table) returns (t: Table)
    requires WF(t0)
    ensures WF(t) && t.index.Keys == t0.index.Keys && GridItems(t) == GridItems(t0)
    ensures t.config == t0.config && t.shadow == t0.shadow && t.dragged == t0.dragged
    ensures t.rows <= t0.rows && t.cols <= t0.cols
    ensures AtLeastMinimum(t0) ==> AtLeastMinimum(t)
    ensures t0.config.compactHorizontally ==> Compacted(t, Horizontal)
    ensures t0.config.compactVertically && !t0.config.compactHorizontally ==> Compacted(t, Vertical)
    ensures t.rows > t0.config.minRows ==> !LineEmpty(t, Vertical, t.rows - 1)
    ensures t.cols > t0.config.minCols ==> !LineEmpty(t, Horizontal, t.cols - 1)
    ensures !t0.config.compactVertically && !t0.config.compactHorizontally ==> t.cells == t0.cells
    ensures UpAndLeft(t0, t)
    ensures t0.config.compactVertically && !t0.config.compactHorizontally ==> InLanes(t0, t, Vertical)
    ensures !t0.config.compactVertically && t0.config.compactHorizontally ==> InLanes(t0, t, Horizontal)
  {
    var t1 := CompactWidgets(t0);
    t := RemoveEmptyRowsAndColumnsFromFringes(t1);
    assert GridItems(t) == GridItems(t1);
    if t0.config.compactHorizontally {
      ShrinkKeepsCompacted(t1, t, Horizontal);
    } else if t0.config.compactVertically {
      ShrinkKeepsCompacted(t1, t, Vertical);
    }
  }

  /** The tail of the drop: trim the fringes, then compact. The size follows
      the trimming rule applied to `t0`; widgets only slide up or left (and
      stay in their lane under one configured pass), and the configured
      compaction holds. With no compaction configured no widget moves. */
  method TrimAndCompact(t0: Table) returns (t: Table)
    requires WF(t0)
    ensures WF(t) && t.index.Keys == t0.index.Keys && GridItems(t) == GridItems(t0)
    ensures t.config == t0.config && t.shadow == t0.shadow && t.dragged == t0.dragged
    ensures t.rows <= t0.rows && t.cols <= t0.cols
    ensures TrimmedTo(t0, Vertical, t0.config.minRows, t0.rows, t.rows)
    ensures TrimmedTo(t0.(rows := t.rows), Horizontal, t0.config.minCols, t0.cols, t.cols)
    ensures AtLeastMinimum(t0) ==> AtLeastMinimum(t)
    ensures t0.config.compactHorizontally ==> Compacted(t, Horizontal)
    ensures t0.config.compactVertically && !t0.config.compactHorizontally ==> Compacted(t, Vertical)
    ensures !t0.config.compactVertically && !t0.config.compactHorizontally ==> t.cells == t0.cells
    ensures UpAndLeft(t0, t)
    ensures t0.config.compactVertically && !t0.config.compactHorizontally ==> InLanes(t0, t, Vertical)
    ensures !t0.config.compactVertically && t0.config.compactHorizontally ==> InLanes(t0, t, Horizontal)
  {
    var t1 := RemoveEmptyRowsAndColumnsFromFringes(t0);
    t := CompactWidgets(t1);
    assert GridItems(t1) == GridItems(t0);
  }

  /** `remove`: take the widget out; if it was in the grid, compact and then
      trim the fringes. Removing a widget that is not in the grid reports
      false and changes nothing. */
  method Remove(t: Table, w: Item) returns (r: Table, removed: bool)
    requires WF(t)
    ensures removed <==> InGrid(t, w)
    ensures !removed ==> r == t
    ensures WF(r) && !InGrid(r, w)
    ensures removed ==> r.index.Keys == t.index.Keys - {w} && GridItems(r) == GridItems(t) - {w}
    ensures r.config == t.config && r.shadow == t.shadow && r.dragged == t.dragged
    ensures AtLeastMinimum(t) ==> AtLeastMinimum(r)
    ensures Idle(t) ==> Idle(r)
    ensures removed && t.config.compactHorizontally ==> Compacted(r, Horizontal)
    ensures removed && t.config.compactVertically && !t.config.compactHorizontally ==> Compacted(r, Vertical)
    ensures removed ==> r.rows <= t.rows && r.cols <= t.cols
    ensures removed && r.rows > t.config.minRows ==> !LineEmpty(r, Vertical, r.rows - 1)
    ensures removed && r.cols > t.config.minCols ==> !LineEmpty(r, Horizontal, r.cols - 1)
    ensures removed && !t.config.compactVertically && !t.config.compactHorizontally ==>
      r.cells == t.cells - {t.index[w]}
    ensures removed ==> var r1 := RemoveWithoutCompacting(t, w).0;
      && UpAndLeft(r1, r)
      && (t.config.compactVertically && !t.config.compactHorizontally ==> InLanes(r1, r, Vertical))
      && (!t.config.compactVertically && t.config.compactHorizontally ==> InLanes(r1, r, Horizontal))
  {
    var (r1, rc) := RemoveWithoutCompacting(t, w);
    RemoveLeavesGrid(t, w);
    removed := rc;
    if rc {
      r := CompactAndTrim(r1);
      if Idle(t) {
        ConsistentIffItems(t);
        ConsistentIffItems(r);
      }
    } else {
      r := t;
    }
  }

  // ---------------------------------------------------------------------
  // The drag session
  // ---------------------------------------------------------------------

  /** `startDraggingWidget`: the fresh shadow `s` takes the dragged widget's
      cell, and the dragged widget leaves the grid (it is re-parented to the
      page) but keeps its map entry. A widget the map does not know makes
      `setWidget` dereference a null position. */
  function StartDragging(t: Table, w: Item, s: Item): (r: Result<Table, Fault>)
    requires s !in t.index
    ensures w !in t.index ==> r == Failure(NullPointer)
    ensures r.Success? ==> r.value.shadow == Some(s) && r.value.dragged == Some(w)
    ensures r.Success? ==> InGrid(r.value, s) && r.value.index[s] == t.index[w]
  {
    match FindWidget(t, w)
    case None => Failure(NullPointer)
    case Some(pos) =>
      if !NonNegative(pos) then Failure(IndexOutOfBounds)
      else Success(SetWidget(t, s, pos).(shadow := Some(s), dragged := Some(w)))
  }

  /** Starting a drag on a widget of an idle table begins a drag session:
      the shadow replaces the widget in the grid and nothing else changes. */
  lemma StartDraggingBegins(t: Table, w: Item, s: Item)
    requires Idle(t) && InGrid(t, w) && s !in t.index
    ensures var r := StartDragging(t, w, s);
      && r.Success? && Dragging(r.value)
      && r.value.index.Keys == t.index.Keys + {s}
      && GridItems(r.value) == GridItems(t) - {w} + {s}
      && r.value.rows == t.rows && r.value.cols == t.cols
  {
    var pos := t.index[w];
    var r1 := SetWidget(t, s, pos);
    SetWidgetItems(t, s, pos);
    ConsistentIffItems(t);
    assert r1.index[w] == pos;
  }

  /** A table that keeps a drag session's shadow in the grid, its widgets
      and its settings, without shrinking, is still in the session. */
  lemma KeepsDragging(t: Table, r: Table)
    requires Dragging(t) && WF(r) && r.rows >= t.rows && r.cols >= t.cols
    requires r.config == t.config && r.shadow == t.shadow && r.dragged == t.dragged
    requires r.index.Keys == t.index.Keys && GridItems(r) == GridItems(t)
    requires InGrid(r, t.shadow.value)
    ensures Dragging(r)
  {
    assert t.dragged.value !in GridItems(r);
  }

  /** Within a drag session, moving the shadow settles, and the session goes
      on with the shadow on its new cell. */
  lemma ShadowMoveSettles(t: Table, newPos: Position)
    requires Dragging(t) && NonNegative(newPos)
    ensures var s := t.shadow.value;
      var m := MoveWidget(t, s, t.index[s], newPos, MoveFuel(t, newPos));
      && m.Some? && Dragging(m.value) && newPos in m.value.cells && m.value.cells[newPos] == s
      && m.value.index.Keys == t.index.Keys && GridItems(m.value) == GridItems(t)
  {
    var s := t.shadow.value;
    MoveSettles(t, s, newPos);
    var m := MoveWidget(t, s, t.index[s], newPos, MoveFuel(t, newPos)).value;
    KeepsDragging(t, m);
  }

  /** `moveShadowWidgetAndCompact`: move the shadow onto `newPos` unless it
      is there already, then compact. There is no shadow outside a drag
      session, and looking it up dereferences null. */
  method MoveShadowWidgetAndCompact(t: Table, newPos: Position) returns (r: Result<Table, Fault>)
    requires WF(t) && NonNegative(newPos)
    ensures t.shadow.None? ==> r == Failure(NullPointer)
    ensures Dragging(t) ==> r.Success? && Dragging(r.value)
    ensures Dragging(t) ==> newPos in r.value.cells && r.value.cells[newPos] == t.shadow.value
    ensures Dragging(t) ==> r.value.index.Keys == t.index.Keys && GridItems(r.value) == GridItems(t)
    ensures r.Success? ==> r.value.config == t.config && r.value.shadow == t.shadow && r.value.dragged == t.dragged
    ensures Dragging(t) && t.index[t.shadow.value] == newPos ==> r == Success(t)
    ensures Dragging(t) && t.index[t.shadow.value] != newPos ==>
      && (t.config.compactHorizontally ==> Compacted(r.value, Horizontal))
      && (t.config.compactVertically && !t.config.compactHorizontally ==> Compacted(r.value, Vertical))
      && (!t.config.compactVertically && !t.config.compactHorizontally ==>
            Settled(t, t.shadow.value, newPos, r.value))
  {
    if t.shadow.None? || t.shadow.value !in t.index {
      return Failure(NullPointer);
    }
    var s := t.shadow.value;
    var oldPos := t.index[s];
    if Equals(oldPos, APosition(newPos)) {
      EqualsIffSameCoordinates(oldPos, newPos);
      return Success(t);
    }
    if !NonNegative(oldPos) {
      return Failure(IndexOutOfBounds);
    }
    var m := MoveWidget(t, s, oldPos, newPos, MoveFuel(t, newPos));
    MoveKeepsWF(t, s, oldPos, newPos, MoveFuel(t, newPos));
    if Dragging(t) {
      ShadowMoveSettles(t, newPos);
      MoveSettles(t, s, newPos);
    }
    if m.None? {
      return Failure(CascadeTooLong);
    }
    var c := CompactWidgets(m.value);
    r := Success(c);
    if Dragging(t) {
      KeepsDragging(m.value, c);
    }
  }

  /** `hoverOverDropTarget`: a hover over no target does nothing. */
  method HoverOverDropTarget(t: Table, target: Option<Position>) returns (r: Result<Table, Fault>)
    requires WF(t) && (target.Some? ==> NonNegative(target.value))
    ensures target.None? ==> r == Success(t)
    ensures target.Some? && Dragging(t) ==> r.Success? && Dragging(r.value)
    ensures target.Some? && Dragging(t) ==>
      target.value in r.value.cells && r.value.cells[target.value] == t.shadow.value
    ensures target.Some? && Dragging(t) && t.index[t.shadow.value] != target.value ==>
      && (t.config.compactHorizontally ==> Compacted(r.value, Horizontal))
      && (t.config.compactVertically && !t.config.compactHorizontally ==> Compacted(r.value, Vertical))
      && (!t.config.compactVertically && !t.config.compactHorizontally ==>
            Settled(t, t.shadow.value, target.value, r.value))
  {
    if target.None? {
      return Success(t);
    }
    r := MoveShadowWidgetAndCompact(t, target.value);
  }

  /** The table once the dragged widget is set down where the shadow was
      and the session has ended, before trimming and compacting. */
  function SetDown(t: Table, s: Item, w: Item, pos: Position): Table
    requires NonNegative(pos)
  {
    SetWidget(RemoveWithoutCompacting(t, s).0, w, pos).(shadow := None, dragged := None)
  }

  /** Setting the dragged widget down ends the session with a consistent
      table: the shadow is gone from the grid and the map, and the dragged
      widget is back in the grid. */
  lemma SetDownEndsSession(t: Table)
    requires Dragging(t)
    ensures var s := t.shadow.value;
      var w := t.dragged.value;
      var r := SetDown(t, s, w, t.index[s]);
      && Idle(r) && r.index.Keys == t.index.Keys - {s} && GridItems(r) == GridItems(t) - {s} + {w}
      && w in GridItems(r) && r.index[w] == t.index[s]
  {
    var s := t.shadow.value;
    var w := t.dragged.value;
    var pos := t.index[s];
    var t1 := RemoveWithoutCompacting(t, s).0;
    RemoveWithoutCompactingSpec(t, s);
    SetWidgetItems(t1, w, pos);
    assert pos !in t1.cells;
    assert GridItems(t1) == GridItems(t) - {s} by {
      forall v | v in t1.index
        ensures InGrid(t1, v) <==> InGrid(t, v)
      {
        assert InGrid(t, v) ==> t.index[v] in t1.cells;
      }
    }
    var r := SetDown(t, s, w, pos);
    assert GridItems(r) == GridItems(SetWidget(t1, w, pos));
    ConsistentIffItems(r);
  }

  /** A table that keeps an idle table's widgets and settings, without
      shrinking below the minimum, is idle. */
  lemma KeepsIdle(t: Table, r: Table)
    requires Idle(t) && WF(r) && AtLeastMinimum(r)
    requires r.config == t.config && r.shadow == t.shadow && r.dragged == t.dragged
    requires r.index.Keys == t.index.Keys && GridItems(r) == GridItems(t)
    ensures Idle(r)
  {
    ConsistentIffItems(t);
    ConsistentIffItems(r);
  }

  /** A widget of the grid of `t0` that compaction may only slide up or left
      (within its lane when one pass `cv` or `ch` runs, not at all when none
      does) ends no lower and no further right than its cell `pos`. */
  lemma LandsNoFurther(t0: Table, t: Table, d: Item, pos: Position, cv: bool, ch: bool)
    requires WF(t) && d in GridItems(t0) && t0.index[d] == pos && UpAndLeft(t0, t)
    requires !cv && !ch ==> t.cells == t0.cells
    requires cv && !ch ==> InLanes(t0, t, Vertical)
    requires !cv && ch ==> InLanes(t0, t, Horizontal)
    ensures d in t.index && t.index[d].row <= pos.row && t.index[d].col <= pos.col
    ensures !cv && !ch ==> t.index[d] == pos
    ensures cv && !ch ==> t.index[d].col == pos.col
    ensures !cv && ch ==> t.index[d].row == pos.row
  {
    if !cv && !ch {
      assert pos in t.cells && t.cells[pos] == d;
    }
  }

  /** `dropDraggedWidget`: take the shadow out, set the dragged widget where
      it was, end the session, then trim the fringes and compact (in that
      order, unlike `remove`). */
  method DropDraggedWidget(t: Table) returns (r: Result<Table, Fault>)
    requires WF(t)
    ensures t.shadow.None? ==> r == Failure(NullPointer)
    ensures Dragging(t) ==> r.Success? && Idle(r.value)
    ensures Dragging(t) ==> r.value.index.Keys == t.index.Keys - {t.shadow.value}
    ensures Dragging(t) ==>
      GridItems(r.value) == GridItems(t) - {t.shadow.value} + {t.dragged.value}
    ensures Dragging(t) ==> r.value.rows <= t.rows && r.value.cols <= t.cols
    ensures Dragging(t) ==>
      var t2 := SetDown(t, t.shadow.value, t.dragged.value, t.index[t.shadow.value]);
      && TrimmedTo(t2, Vertical, t.config.minRows, t.rows, r.value.rows)
      && TrimmedTo(t2.(rows := r.value.rows), Horizontal, t.config.minCols, t.cols, r.value.cols)
    ensures Dragging(t) && t.config.compactHorizontally ==> Compacted(r.value, Horizontal)
    ensures Dragging(t) && t.config.compactVertically && !t.config.compactHorizontally ==>
      Compacted(r.value, Vertical)
    ensures Dragging(t) ==>
      var t2 := SetDown(t, t.shadow.value, t.dragged.value, t.index[t.shadow.value]);
      && UpAndLeft(t2, r.value)
      && (!t.config.compactVertically && !t.config.compactHorizontally ==> r.value.cells == t2.cells)
      && (t.config.compactVertically && !t.config.compactHorizontally ==> InLanes(t2, r.value, Vertical))
      && (!t.config.compactVertically && t.config.compactHorizontally ==> InLanes(t2, r.value, Horizontal))
    ensures Dragging(t) ==>
      var pos, d := t.index[t.shadow.value], t.dragged.value;
      && d in r.value.index && r.value.index[d].row <= pos.row && r.value.index[d].col <= pos.col
      && (!t.config.compactVertically && !t.config.compactHorizontally ==> r.value.index[d] == pos)
      && (t.config.compactVertically && !t.config.compactHorizontally ==> r.value.index[d].col == pos.col)
      && (!t.config.compactVertically && t.config.compactHorizontally ==> r.value.index[d].row == pos.row)
  {
    if t.shadow.None? || t.shadow.value !in t.index {
      return Failure(NullPointer);
    }
    var s := t.shadow.value;
    var pos := t.index[s];
    if t.dragged.None? {
      return Failure(NullPointer);
    }
    if !NonNegative(pos) {
      return Failure(IndexOutOfBounds);
    }
    var t2 := SetDown(t, s, t.dragged.value, pos);
    RemoveWithoutCompactingSpec(t, s);
    SetWidgetFrame(RemoveWithoutCompacting(t, s).0, t.dragged.value, pos);
    var t4 := TrimAndCompact(t2);
    r := Success(t4);
    if Dragging(t) {
      SetDownEndsSession(t);
      KeepsIdle(t2, t4);
      LandsNoFurther(t2, t4, t.dragged.value, pos, t.config.compactVertically, t.config.compactHorizontally);
    }
  }
}

=== FILE: cascade.dfy ===
/** Why a cascading move settles. With the vertical or horizontal strategy a
    cascade runs in one direction along a lane: backwards while an empty cell
    lies behind it, forwards otherwise (the grid grows when the end of the
    lane is reached). With the swap strategy the occupant lands on the cell
    just vacated. The lemmas here show the cascade finishes within `MoveFuel`
    moves and say where everything ends up. */
module Cascade {
  import opened Wrappers
  import opened Positions
  import opened Grid
  import opened Moves

  // ---------------------------------------------------------------------
  // One step of a move
  // ---------------------------------------------------------------------

  /** The first steps of a move, in closed form: grow, detach the widget,
      overwrite the target; the displaced occupant is what the target held. */
  lemma PlacedEffect(t: Table, w: Item, p: Position)
    requires NonNegative(p)
    ensures Placed(t, w, p) ==
      EnsurePositionExists(t, p).(cells := Detach(t, w)[p := w], index := t.index[w := p])
    ensures Displaced(t, w, p) == if p in Detach(t, w) then Some(Detach(t, w)[p]) else None
  {
    var t1 := EnsurePositionExists(t, p);
    var t2 := RemoveWithoutCompacting(t1, w).0;
    assert t2.cells == Detach(t, w);
    if InGrid(t, w) {
      assert t2.index[w := p] == t.index[w := p];
    }
    assert EnsurePositionExists(t2, p) == t2;
    assert Detach(t2, w) == t2.cells;
  }

  /** A widget the map knows but the grid does not hold: the state of an
      occupant between being displaced and being set down again. */
  predicate Pending(t: Table, u: Item) {
    u in t.index && !InGrid(t, u)
  }

  /** Setting a pending widget onto a cell of the grid: the cell's previous
      occupant, if any, becomes pending in turn. */
  function Overwrite(t: Table, u: Item, to: Position): (r: Table)
    requires WF(t) && Pending(t, u) && IsCellPresent(t, to)
    ensures WF(r) && InGrid(r, u) && to in r.cells && r.cells[to] == u
    ensures r.rows == t.rows && r.cols == t.cols && r.config == t.config
    ensures r.index.Keys == t.index.Keys
    ensures to in t.cells ==> Pending(r, t.cells[to])
  {
    t.(cells := t.cells[to := u], index := t.index[u := to])
  }

  /** Overwriting changes the target cell and nothing else. */
  lemma OverwriteFrame(t: Table, u: Item, to: Position)
    requires WF(t) && Pending(t, u) && IsCellPresent(t, to)
    ensures forall p :: p != to ==> (p in Overwrite(t, u, to).cells <==> p in t.cells)
    ensures forall p :: p != to && p in t.cells ==> Overwrite(t, u, to).cells[p] == t.cells[p]
  {
  }

  /** The grid's widgets after an overwrite: `u` joins, the old occupant
      leaves. */
  lemma OverwriteItems(t: Table, u: Item, to: Position)
    requires WF(t) && Pending(t, u) && IsCellPresent(t, to)
    ensures GridItems(Overwrite(t, u, to)) ==
      (GridItems(t) - (if to in t.cells then {t.cells[to]} else {})) + {u}
  {
    var r := Overwrite(t, u, to);
    forall v | v in GridItems(r)
      ensures v in (GridItems(t) - (if to in t.cells then {t.cells[to]} else {})) + {u}
    {
      if v != u {
        assert r.index[v] != to;
        assert InGrid(t, v);
      }
    }
  }

  /** For a pending widget, placing is overwriting. */
  lemma PlacedIsOverwrite(t: Table, u: Item, to: Position)
    requires WF(t) && Pending(t, u) && IsCellPresent(t, to)
    ensures Placed(t, u, to) == Overwrite(t, u, to)
    ensures Displaced(t, u, to) == Occupant(t, to)
  {
    PlacedEffect(t, u, to);
    assert Detach(t, u) == t.cells;
  }

  /** One unfolding of a move that displaces an occupant. */
  lemma MoveUnfold(t: Table, w: Item, oldPos: Position, newPos: Position, fuel: nat)
    requires NonNegative(oldPos) && NonNegative(newPos) && fuel > 0
    requires Displaced(t, w, newPos).Some?
    ensures MoveWidget(t, w, oldPos, newPos, fuel) ==
      MoveWidget(Placed(t, w, newPos), Displaced(t, w, newPos).value, newPos,
                 SqueezedTo(Placed(t, w, newPos), t.config.strategy, oldPos, newPos), fuel - 1)
  {
    assert Placed(t, w, newPos).config == t.config;
  }

  /** Setting a pending widget leaves every other cell as it was. */
  lemma PlacedKeepsCell(t: Table, w: Item, p: Position, q: Position)
    requires NonNegative(p) && Pending(t, w) && q != p && q in t.cells
    ensures q in Placed(t, w, p).cells && Placed(t, w, p).cells[q] == t.cells[q]
  {
    PlacedEffect(t, w, p);
    assert Detach(t, w) == t.cells;
  }

  /** A move onto a cell nobody holds, present or not, is a single step. */
  lemma MoveOntoFree(t: Table, w: Item, oldPos: Position, p: Position, fuel: nat)
    requires NonNegative(oldPos) && NonNegative(p) && p !in t.cells && fuel >= 1
    requires Pending(t, w)
    ensures MoveWidget(t, w, oldPos, p, fuel) == Some(Placed(t, w, p))
  {
    PlacedEffect(t, w, p);
    assert Detach(t, w) == t.cells;
  }

  // ---------------------------------------------------------------------
  // What every move keeps
  // ---------------------------------------------------------------------

  /** Placing a widget of a well-formed table, one widget `v` at a time:
      `w` joins the map and the grid, the displaced occupant (if any) leaves
      the grid but stays in the map, and nobody else changes. */
  lemma PlacedItem(t: Table, w: Item, p: Position, v: Item)
    requires WF(t) && NonNegative(p)
    ensures var r := Placed(t, w, p);
      var d := Displaced(t, w, p);
      && (v in r.index <==> v in t.index || v == w)
      && (InGrid(r, v) <==> v == w || (InGrid(t, v) && d != Some(v)))
      && (d.Some? ==> Pending(r, d.value) && d.value != w && InGrid(t, d.value))
  {
    PlacedEffect(t, w, p);
    PlacedKeepsWF(t, w, p);
    DetachSpec(t, w);
  }

  /** A move that displaces nobody is the single placement. */
  lemma MoveOntoVacant(t: Table, w: Item, oldPos: Position, newPos: Position, fuel: nat)
    requires NonNegative(oldPos) && NonNegative(newPos) && fuel > 0
    requires Displaced(t, w, newPos).None?
    ensures MoveWidget(t, w, oldPos, newPos, fuel) == Some(Placed(t, w, newPos))
  {
  }

  /** A finished move, one widget `v` at a time: the map knows `v` afterwards
      exactly when it did before or `v` is the moved widget, and likewise the
      grid holds `v` afterwards exactly when it did before or `v` is the moved
      widget. Nobody is lost in a cascade. */
  lemma {:induction false} MoveKeepsItem(t: Table, w: Item, oldPos: Position, newPos: Position, fuel: nat, v: Item)
    requires WF(t) && NonNegative(oldPos) && NonNegative(newPos)
    ensures var m := MoveWidget(t, w, oldPos, newPos, fuel);
      m.Some? ==> (v in m.value.index <==> v in t.index || v == w) && (InGrid(m.value, v) <==> InGrid(t, v) || v == w)
    decreases fuel, 1
  {
    if fuel > 0 {
      PlacedItem(t, w, newPos, v);
      if Displaced(t, w, newPos).None? {
        MoveOntoVacant(t, w, oldPos, newPos, fuel);
      } else {
        MoveKeepsItemPush(t, w, oldPos, newPos, fuel, v);
      }
    }
  }

  lemma {:induction false} MoveKeepsItemPush(t: Table, w: Item, oldPos: Position, newPos: Position, fuel: nat, v: Item)
    requires WF(t) && NonNegative(oldPos) && NonNegative(newPos) && fuel > 0
    requires Displaced(t, w, newPos).Some?
    ensures var m := MoveWidget(t, w, oldPos, newPos, fuel);
      m.Some? ==> (v in m.value.index <==> v in t.index || v == w) && (InGrid(m.value, v) <==> InGrid(t, v) || v == w)
    decreases fuel, 0
  {
    var t3 := Placed(t, w, newPos);
    var u := Displaced(t, w, newPos).value;
    PlacedItem(t, w, newPos, v);
    PlacedKeepsWF(t, w, newPos);
    MoveUnfold(t, w, oldPos, newPos, fuel);
    MoveKeepsItem(t3, u, newPos, SqueezedTo(t3, t.config.strategy, oldPos, newPos), fuel - 1, v);
  }

  /** The same, for the map's keys and the grid's widgets as sets. */
  lemma MoveKeepsItems(t: Table, w: Item, oldPos: Position, newPos: Position, fuel: nat)
    requires WF(t) && NonNegative(oldPos) && NonNegative(newPos)
    ensures var m := MoveWidget(t, w, oldPos, newPos, fuel);
      m.Some? ==> m.value.index.Keys == t.index.Keys + {w} && GridItems(m.value) == GridItems(t) + {w}
  {
    var m := MoveWidget(t, w, oldPos, newPos, fuel);
    if m.Some? {
      forall v
        ensures (v in m.value.index <==> v in t.index || v == w) && (InGrid(m.value, v) <==> InGrid(t, v) || v == w)
      {
        MoveKeepsItem(t, w, oldPos, newPos, fuel, v);
      }
    }
  }

  // ---------------------------------------------------------------------
  // The backward cascade
  // ---------------------------------------------------------------------

  /** One backward push: with room at or behind an occupied `to`, the
      occupant of `to` is squeezed one step back, where there is room still. */
  lemma BackStep(t: Table, a: Axis, u: Item, from: Position, to: Position)
    requires WF(t) && t.config.strategy != Swap && a == AxisOf(t.config.strategy)
    requires Pending(t, u) && NonNegative(from) && NonNegative(to) && to in t.cells
    requires RoomFrom(t, a, Lane(a, to), Depth(a, to))
    ensures IsCellPresent(t, to)
    ensures var t3 := Overwrite(t, u, to);
      var q := SqueezedTo(t3, t.config.strategy, from, to);
      q == Back(a, to) && IsCellPresent(t3, q) && RoomFrom(t3, a, Lane(a, q), Depth(a, q))
  {
    var t3 := Overwrite(t, u, to);
    SqueezeAlongAxis(t3, t.config.strategy, from, to);
    AtOfCoordinates(a, to);
    OverwriteFrame(t, u, to);
    RoomFromSpec(t, a, Lane(a, to), Depth(a, to));
    var k :| 0 <= k <= Depth(a, to) && IsCellEmpty(t, At(a, Lane(a, to), k));
    assert k != Depth(a, to);
    assert IsCellEmpty(t3, At(a, Lane(a, to), k));
    IsRoomBeforeSpec(t3, a, to);
    RoomFromSpec(t3, a, Lane(a, to), Depth(a, to) - 1);
    PresentAlongAxis(t3, a, to);
    PresentAlongAxis(t3, a, Back(a, to));
  }

  /** One unfolding of the backward cascade, with what the next step needs. */
  lemma BackUnfold(t: Table, a: Axis, u: Item, from: Position, to: Position, fuel: nat)
    requires WF(t) && t.config.strategy != Swap && a == AxisOf(t.config.strategy)
    requires Pending(t, u) && NonNegative(from) && NonNegative(to) && to in t.cells
    requires RoomFrom(t, a, Lane(a, to), Depth(a, to))
    requires fuel > 0
    ensures IsCellPresent(t, to)
    ensures var t3 := Overwrite(t, u, to);
      var q := Back(a, to);
      && MoveWidget(t, u, from, to, fuel) == MoveWidget(t3, t.cells[to], to, q, fuel - 1)
      && Pending(t3, t.cells[to]) && NonNegative(q) && IsCellPresent(t3, q)
      && RoomFrom(t3, a, Lane(a, q), Depth(a, q))
  {
    BackStep(t, a, u, from, to);
    PlacedIsOverwrite(t, u, to);
    MoveUnfold(t, u, from, to, fuel);
  }

  /** The backward cascade finishes: `u` is pending and pushed onto `to`,
      and some cell at or behind `to` in its lane is empty. */
  lemma {:induction false} ChainBack(t: Table, a: Axis, u: Item, from: Position, to: Position, fuel: nat)
    requires WF(t) && t.config.strategy != Swap && a == AxisOf(t.config.strategy)
    requires Pending(t, u) && NonNegative(from) && NonNegative(to) && IsCellPresent(t, to)
    requires RoomFrom(t, a, Lane(a, to), Depth(a, to))
    requires fuel > Depth(a, to)
    ensures MoveWidget(t, u, from, to, fuel).Some?
    decreases fuel
  {
    if to !in t.cells {
      MoveOntoFree(t, u, from, to, fuel);
    } else {
      BackUnfold(t, a, u, from, to, fuel);
      ChainBack(Overwrite(t, u, to), a, t.cells[to], to, Back(a, to), fuel - 1);
    }
  }

  /** The backward cascade leaves every cell outside the lane, and every cell
      of the lane beyond `to`, as it was. */
  lemma {:induction false} ChainBackFrame(t: Table, a: Axis, u: Item, from: Position, to: Position, fuel: nat, p: Position)
    requires WF(t) && t.config.strategy != Swap && a == AxisOf(t.config.strategy)
    requires Pending(t, u) && NonNegative(from) && NonNegative(to) && IsCellPresent(t, to)
    requires RoomFrom(t, a, Lane(a, to), Depth(a, to))
    requires p in t.cells && (Lane(a, p) != Lane(a, to) || Depth(a, p) > Depth(a, to))
    ensures var m := MoveWidget(t, u, from, to, fuel);
      m.Some? ==> p in m.value.cells && m.value.cells[p] == t.cells[p]
    decreases fuel
  {
    if fuel > 0 {
      OverwriteFrame(t, u, to);
      if to !in t.cells {
        MoveOntoFree(t, u, from, to, fuel);
        PlacedKeepsCell(t, u, to, p);
      } else {
        BackUnfold(t, a, u, from, to, fuel);
        ChainBackFrame(Overwrite(t, u, to), a, t.cells[to], to, Back(a, to), fuel - 1, p);
      }
    }
  }

  // ---------------------------------------------------------------------
  // The forward cascade
  // ---------------------------------------------------------------------

  /** One forward push: with no room behind an occupied `to`, the occupant is
      squeezed one step forward, and there is no room behind that step. */
  lemma ForwardStep(t: Table, a: Axis, u: Item, from: Position, to: Position)
    requires WF(t) && t.config.strategy != Swap && a == AxisOf(t.config.strategy)
    requires Pending(t, u) && NonNegative(from) && NonNegative(to) && to in t.cells
    requires !IsRoomBefore(t, a, to)
    ensures IsCellPresent(t, to)
    ensures SqueezedTo(Overwrite(t, u, to), t.config.strategy, from, to) == Forward(a, to)
    ensures !IsRoomBefore(Overwrite(t, u, to), a, Forward(a, to))
  {
    var t3 := Overwrite(t, u, to);
    var q := Forward(a, to);
    SqueezeAlongAxis(t3, t.config.strategy, from, to);
    AtOfCoordinates(a, to);
    OverwriteFrame(t, u, to);
    IsRoomBeforeSpec(t, a, to);
    IsRoomBeforeSpec(t3, a, to);
    IsRoomBeforeSpec(t3, a, q);
    assert !IsRoomBefore(t3, a, to) by {
      forall k | 0 <= k < Depth(a, to)
        ensures !IsCellEmpty(t3, At(a, Lane(a, to), k))
      {
        assert !IsCellEmpty(t, At(a, Lane(a, to), k));
      }
    }
    assert !IsRoomBefore(t3, a, q) by {
      forall k | 0 <= k < Depth(a, q)
        ensures !IsCellEmpty(t3, At(a, Lane(a, q), k))
      {
        if k < Depth(a, to) {
          assert !IsCellEmpty(t, At(a, Lane(a, to), k));
        }
      }
    }
  }

  /** One unfolding of the forward cascade, with what the next step needs. */
  lemma ForwardUnfold(t: Table, a: Axis, u: Item, from: Position, to: Position, fuel: nat)
    requires WF(t) && t.config.strategy != Swap && a == AxisOf(t.config.strategy)
    requires Pending(t, u) && NonNegative(from) && NonNegative(to) && to in t.cells
    requires !IsRoomBefore(t, a, to)
    requires fuel > 0
    ensures var t3 := Overwrite(t, u, to);
      var q := Forward(a, to);
      && MoveWidget(t, u, from, to, fuel) == MoveWidget(t3, t.cells[to], to, q, fuel - 1)
      && Pending(t3, t.cells[to]) && NonNegative(q)
      && Depth(a, to) < Extent(t, a) && Lane(a, q) == Lane(a, to)
      && !IsRoomBefore(t3, a, q)
  {
    ForwardStep(t, a, u, from, to);
    PlacedIsOverwrite(t, u, to);
    MoveUnfold(t, u, from, to, fuel);
    PresentAlongAxis(t, a, to);
  }

  /** The forward cascade finishes: there is no room before `to` in its
      lane, so the occupants keep moving forward, and the grid grows when the
      end of the lane is reached. */
  lemma {:induction false} ChainForward(t: Table, a: Axis, u: Item, from: Position, to: Position, fuel: nat)
    requires WF(t) && t.config.strategy != Swap && a == AxisOf(t.config.strategy)
    requires Pending(t, u) && NonNegative(from) && NonNegative(to)
    requires 0 <= Lane(a, to) < Breadth(t, a) && Depth(a, to) <= Extent(t, a)
    requires !IsRoomBefore(t, a, to)
    requires fuel > Extent(t, a) - Depth(a, to)
    ensures MoveWidget(t, u, from, to, fuel).Some?
    decreases fuel
  {
    if to !in t.cells {
      MoveOntoFree(t, u, from, to, fuel);
    } else {
      ForwardUnfold(t, a, u, from, to, fuel);
      ChainForward(Overwrite(t, u, to), a, t.cells[to], to, Forward(a, to), fuel - 1);
    }
  }

  /** The forward cascade leaves every cell outside the lane, and every cell
      of the lane before `to`, as it was. */
  lemma {:induction false} ChainForwardFrame(t: Table, a: Axis, u: Item, from: Position, to: Position, fuel: nat, p: Position)
    requires WF(t) && t.config.strategy != Swap && a == AxisOf(t.config.strategy)
    requires Pending(t, u) && NonNegative(from) && NonNegative(to)
    requires !IsRoomBefore(t, a, to)
    requires p in t.cells && (Lane(a, p) != Lane(a, to) || Depth(a, p) < Depth(a, to))
    ensures var m := MoveWidget(t, u, from, to, fuel);
      m.Some? ==> p in m.value.cells && m.value.cells[p] == t.cells[p]
    decreases fuel
  {
    if fuel > 0 {
      if to !in t.cells {
        MoveOntoFree(t, u, from, to, fuel);
        PlacedKeepsCell(t, u, to, p);
      } else {
        OverwriteFrame(t, u, to);
        ForwardUnfold(t, a, u, from, to, fuel);
        ChainForwardFrame(Overwrite(t, u, to), a, t.cells[to], to, Forward(a, to), fuel - 1, p);
      }
    }
  }

  /** No room before an occupied cell means no room before the next one. */
  lemma NoRoomPastOccupied(t: Table, a: Axis, p: Position)
    requires !IsRoomBefore(t, a, p) && p in t.cells
    ensures !IsRoomBefore(t, a, Forward(a, p))
  {
    AtOfCoordinates(a, p);
  }

  /** The backward cascade sets `u` down on `to`, where it stays. */
  lemma ChainBackLands(t: Table, a: Axis, u: Item, from: Position, to: Position, fuel: nat)
    requires WF(t) && t.config.strategy != Swap && a == AxisOf(t.config.strategy)
    requires Pending(t, u) && NonNegative(from) && NonNegative(to) && IsCellPresent(t, to)
    requires RoomFrom(t, a, Lane(a, to), Depth(a, to))
    ensures var m := MoveWidget(t, u, from, to, fuel);
      m.Some? ==> to in m.value.cells && m.value.cells[to] == u
  {
    if fuel > 0 {
      if to !in t.cells {
        MoveOntoFree(t, u, from, to, fuel);
      } else {
        BackUnfold(t, a, u, from, to, fuel);
        ChainBackFrame(Overwrite(t, u, to), a, t.cells[to], to, Back(a, to), fuel - 1, to);
      }
    }
  }

  /** The forward cascade sets `u` down on `to`, where it stays. */
  lemma ChainForwardLands(t: Table, a: Axis, u: Item, from: Position, to: Position, fuel: nat)
    requires WF(t) && t.config.strategy != Swap && a == AxisOf(t.config.strategy)
    requires Pending(t, u) && NonNegative(from) && NonNegative(to)
    requires !IsRoomBefore(t, a, to)
    ensures var m := MoveWidget(t, u, from, to, fuel);
      m.Some? ==> to in m.value.cells && m.value.cells[to] == u
  {
    if fuel > 0 {
      if to !in t.cells {
        MoveOntoFree(t, u, from, to, fuel);
      } else {
        ForwardUnfold(t, a, u, from, to, fuel);
        ChainForwardFrame(Overwrite(t, u, to), a, t.cells[to], to, Forward(a, to), fuel - 1, to);
      }
    }
  }

  // ---------------------------------------------------------------------
  // A move settles
  // ---------------------------------------------------------------------

  /** What a settled move promises: the moved widget sits at `newPos`, the
      occupant it displaced (if any) sits where the strategy squeezed it, and
      the table is well-formed with the same widgets in the grid and the map. */
  predicate Settled(t: Table, w: Item, newPos: Position, r: Table)
    requires WF(t) && NonNegative(newPos)
  {
    && WF(r)
    && newPos in r.cells && r.cells[newPos] == w && InGrid(r, w)
    && r.index.Keys == t.index.Keys && GridItems(r) == GridItems(t)
    && match Displaced(t, w, newPos)
       case None => r == Placed(t, w, newPos)
       case Some(u) =>
         var q := SqueezedTo(Placed(t, w, newPos), t.config.strategy, t.index[w], newPos);
         q in r.cells && r.cells[q] == u
  }

  /** The invariants part of `Settled`, from the general lemmas. */
  lemma SettledInvariants(t: Table, w: Item, newPos: Position)
    requires WF(t) && InGrid(t, w) && NonNegative(newPos)
    ensures var m := MoveWidget(t, w, t.index[w], newPos, MoveFuel(t, newPos));
      m.Some? ==> WF(m.value) && m.value.index.Keys == t.index.Keys && GridItems(m.value) == GridItems(t)
  {
    var oldPos := t.index[w];
    MoveKeepsWF(t, w, oldPos, newPos, MoveFuel(t, newPos));
    MoveKeepsItems(t, w, oldPos, newPos, MoveFuel(t, newPos));
    assert w in GridItems(t);
  }

  /** The facts about the table after a move's first step, on which the
      rest of the move works. */
  predicate AfterFirstStep(t: Table, w: Item, newPos: Position)
    requires WF(t) && InGrid(t, w) && NonNegative(newPos) && Displaced(t, w, newPos).Some?
  {
    var t3 := Placed(t, w, newPos);
    var u := Displaced(t, w, newPos).value;
    var q := SqueezedTo(t3, t.config.strategy, t.index[w], newPos);
    && WF(t3) && Pending(t3, u) && IsCellPresent(t3, newPos) && NonNegative(q)
    && newPos in t3.cells && t3.cells[newPos] == w
  }

  /** The first step of a move that displaces an occupant: the move goes on
      as the occupant's move from `newPos` to its squeezed position. */
  lemma FirstStep(t: Table, w: Item, newPos: Position)
    requires WF(t) && InGrid(t, w) && NonNegative(newPos)
    requires Displaced(t, w, newPos).Some?
    ensures var t3 := Placed(t, w, newPos);
      var u := Displaced(t, w, newPos).value;
      var q := SqueezedTo(t3, t.config.strategy, t.index[w], newPos);
      && AfterFirstStep(t, w, newPos)
      && MoveWidget(t, w, t.index[w], newPos, MoveFuel(t, newPos)) == MoveWidget(t3, u, newPos, q, MoveFuel(t, newPos) - 1)
  {
    PlacedKeepsWF(t, w, newPos);
    PlacedItem(t, w, newPos, Displaced(t, w, newPos).value);
    MoveUnfold(t, w, t.index[w], newPos, MoveFuel(t, newPos));
  }

  /** With the swap strategy the displaced occupant lands on the vacated
      cell in one more step. */
  lemma RestBySwap(t: Table, w: Item, newPos: Position)
    requires WF(t) && InGrid(t, w) && NonNegative(newPos) && t.config.strategy == Swap
    requires Displaced(t, w, newPos).Some? && AfterFirstStep(t, w, newPos)
    ensures var t3 := Placed(t, w, newPos);
      var u := Displaced(t, w, newPos).value;
      var q := SqueezedTo(t3, t.config.strategy, t.index[w], newPos);
      var m := MoveWidget(t3, u, newPos, q, MoveFuel(t, newPos) - 1);
      && m.Some? && newPos in m.value.cells && m.value.cells[newPos] == w
      && q in m.value.cells && m.value.cells[q] == u
  {
    var oldPos := t.index[w];
    var t3 := Placed(t, w, newPos);
    var u := Displaced(t, w, newPos).value;
    assert oldPos != newPos && oldPos !in t3.cells by {
      PlacedEffect(t, w, newPos);
      DetachSpec(t, w);
    }
    SqueezedToSpec(t3, Swap, oldPos, newPos);
    MoveOntoFree(t3, u, newPos, oldPos, MoveFuel(t, newPos) - 1);
    PlacedKeepsCell(t3, u, oldPos, newPos);
  }

  /** With a one-directional strategy and room behind `newPos`, the rest of
      the move is a backward cascade from the cell just behind it. */
  lemma RestBackward(t: Table, w: Item, newPos: Position)
    requires WF(t) && InGrid(t, w) && NonNegative(newPos) && t.config.strategy != Swap
    requires Displaced(t, w, newPos).Some? && AfterFirstStep(t, w, newPos)
    requires IsRoomBefore(Placed(t, w, newPos), AxisOf(t.config.strategy), newPos)
    ensures var t3 := Placed(t, w, newPos);
      var u := Displaced(t, w, newPos).value;
      var q := SqueezedTo(t3, t.config.strategy, t.index[w], newPos);
      var m := MoveWidget(t3, u, newPos, q, MoveFuel(t, newPos) - 1);
      && m.Some? && newPos in m.value.cells && m.value.cells[newPos] == w
      && q in m.value.cells && m.value.cells[q] == u
  {
    var a := AxisOf(t.config.strategy);
    var t3 := Placed(t, w, newPos);
    var q := SqueezedTo(t3, t.config.strategy, t.index[w], newPos);
    BackwardStart(t3, t.config.strategy, t.index[w], newPos);
    ChainBackAll(t3, a, Displaced(t, w, newPos).value, newPos, q, MoveFuel(t, newPos) - 1, newPos);
  }

  /** With room behind a present `newPos`, the displaced occupant is squeezed
      one step back, onto a present cell with room at or behind it. */
  lemma BackwardStart(t: Table, s: SqueezeStrategy, oldPos: Position, newPos: Position)
    requires s != Swap && IsCellPresent(t, newPos) && IsRoomBefore(t, AxisOf(s), newPos)
    ensures var a := AxisOf(s);
      var q := SqueezedTo(t, s, oldPos, newPos);
      && q == Back(a, newPos) && IsCellPresent(t, q) && RoomFrom(t, a, Lane(a, q), Depth(a, q))
  {
    var a := AxisOf(s);
    SqueezeAlongAxis(t, s, oldPos, newPos);
    PresentAlongAxis(t, a, newPos);
    PresentAlongAxis(t, a, Back(a, newPos));
  }

  /** The backward cascade in one statement: it finishes, leaves `p` alone
      and sets `u` down on `to`. */
  lemma ChainBackAll(t: Table, a: Axis, u: Item, from: Position, to: Position, fuel: nat, p: Position)
    requires WF(t) && t.config.strategy != Swap && a == AxisOf(t.config.strategy)
    requires Pending(t, u) && NonNegative(from) && NonNegative(to) && IsCellPresent(t, to)
    requires RoomFrom(t, a, Lane(a, to), Depth(a, to))
    requires fuel > Depth(a, to)
    requires p in t.cells && (Lane(a, p) != Lane(a, to) || Depth(a, p) > Depth(a, to))
    ensures var m := MoveWidget(t, u, from, to, fuel);
      && m.Some? && p in m.value.cells && m.value.cells[p] == t.cells[p]
      && to in m.value.cells && m.value.cells[to] == u
  {
    ChainBack(t, a, u, from, to, fuel);
    ChainBackFrame(t, a, u, from, to, fuel, p);
    ChainBackLands(t, a, u, from, to, fuel);
  }

  /** With a one-directional strategy and no room behind `newPos`, the rest
      of the move is a forward cascade from the cell just after it. */
  lemma RestForward(t: Table, w: Item, newPos: Position)
    requires WF(t) && InGrid(t, w) && NonNegative(newPos) && t.config.strategy != Swap
    requires Displaced(t, w, newPos).Some? && AfterFirstStep(t, w, newPos)
    requires !IsRoomBefore(Placed(t, w, newPos), AxisOf(t.config.strategy), newPos)
    ensures var t3 := Placed(t, w, newPos);
      var u := Displaced(t, w, newPos).value;
      var q := SqueezedTo(t3, t.config.strategy, t.index[w], newPos);
      var m := MoveWidget(t3, u, newPos, q, MoveFuel(t, newPos) - 1);
      && m.Some? && newPos in m.value.cells && m.value.cells[newPos] == w
      && q in m.value.cells && m.value.cells[q] == u
  {
    var a := AxisOf(t.config.strategy);
    var t3 := Placed(t, w, newPos);
    var q := SqueezedTo(t3, t.config.strategy, t.index[w], newPos);
    SqueezeAlongAxis(t3, t.config.strategy, t.index[w], newPos);
    NoRoomPastOccupied(t3, a, newPos);
    PresentAlongAxis(t3, a, newPos);
    ChainForwardAll(t3, a, Displaced(t, w, newPos).value, newPos, q, MoveFuel(t, newPos) - 1, newPos);
  }

  /** The forward cascade in one statement: it finishes, leaves `p` alone
      and sets `u` down on `to`. */
  lemma ChainForwardAll(t: Table, a: Axis, u: Item, from: Position, to: Position, fuel: nat, p: Position)
    requires WF(t) && t.config.strategy != Swap && a == AxisOf(t.config.strategy)
    requires Pending(t, u) && NonNegative(from) && NonNegative(to)
    requires 0 <= Lane(a, to) < Breadth(t, a) && Depth(a, to) <= Extent(t, a)
    requires !IsRoomBefore(t, a, to)
    requires fuel > Extent(t, a) - Depth(a, to)
    requires p in t.cells && (Lane(a, p) != Lane(a, to) || Depth(a, p) < Depth(a, to))
    ensures var m := MoveWidget(t, u, from, to, fuel);
      && m.Some? && p in m.value.cells && m.value.cells[p] == t.cells[p]
      && to in m.value.cells && m.value.cells[to] == u
  {
    ChainForward(t, a, u, from, to, fuel);
    ChainForwardFrame(t, a, u, from, to, fuel, p);
    ChainForwardLands(t, a, u, from, to, fuel);
  }

  /** `moveWidget` settles for every strategy within `MoveFuel` moves. */
  lemma MoveSettles(t: Table, w: Item, newPos: Position)
    requires WF(t) && InGrid(t, w) && NonNegative(newPos)
    ensures var m := MoveWidget(t, w, t.index[w], newPos, MoveFuel(t, newPos));
      m.Some? && Settled(t, w, newPos, m.value)
  {
    SettledInvariants(t, w, newPos);
    PlacedKeepsWF(t, w, newPos);
    if Displaced(t, w, newPos).None? {
      MoveOntoVacant(t, w, t.index[w], newPos, MoveFuel(t, newPos));
    } else {
      FirstStep(t, w, newPos);
      if t.config.strategy == Swap {
        RestBySwap(t, w, newPos);
      } else if IsRoomBefore(Placed(t, w, newPos), AxisOf(t.config.strategy), newPos) {
        RestBackward(t, w, newPos);
      } else {
        RestForward(t, w, newPos);
      }
    }
  }
}

=== FILE: clamp.dfy ===
/** `ConstrainedDragMoveListener`: a dragged widget is kept inside its
    container by clamping the requested left and top. The clamp raises the
    coordinate to zero first and then lowers it to the container's size less
    the widget's, so a widget larger than its container ends up at a
    negative offset. Sizes are plain numbers here; in the browser they are
    the widgets' offset width and height. */
module Clamp {

  /** One axis of `setAbsolutePosition`: `min(max(0, v), size - widgetSize)`. */
  function ClampAxis(v: int, size: int, widgetSize: int): (r: int)
    ensures r <= size - widgetSize
    ensures widgetSize <= size ==> 0 <= r
    ensures 0 <= v <= size - widgetSize ==> r == v
    ensures widgetSize > size ==> r == size - widgetSize
    ensures r == v || r == 0 || r == size - widgetSize
  {
    var lower := if 0 > v then 0 else v;
    if lower < size - widgetSize then lower else size - widgetSize
  }

  /** A requested offset below zero becomes zero, and one past the far side
      becomes the far side, whenever the widget fits. */
  lemma ClampOutsideToEdges(v: int, size: int, widgetSize: int)
    requires widgetSize <= size
    ensures v < 0 ==> ClampAxis(v, size, widgetSize) == 0
    ensures v > size - widgetSize ==> ClampAxis(v, size, widgetSize) == size - widgetSize
  {
  }

  /** Clamping keeps order and clamping twice is clamping once. */
  lemma ClampMonotoneIdempotent(v1: int, v2: int, size: int, widgetSize: int)
    ensures v1 <= v2 ==> ClampAxis(v1, size, widgetSize) <= ClampAxis(v2, size, widgetSize)
    ensures ClampAxis(ClampAxis(v1, size, widgetSize), size, widgetSize) == ClampAxis(v1, size, widgetSize)
  {
  }

  /** A widget's position on the page. */
  datatype Point = Point(left: int, top: int)

  /** `setAbsolutePosition`: left against the container's width, top against
      its height. */
  function SetAbsolutePosition(left: int, top: int, containerWidth: int, containerHeight: int,
                               widgetWidth: int, widgetHeight: int): (p: Point)
    ensures p.left + widgetWidth <= containerWidth && p.top + widgetHeight <= containerHeight
    ensures widgetWidth <= containerWidth ==> 0 <= p.left
    ensures widgetHeight <= containerHeight ==> 0 <= p.top
    ensures 0 <= left <= containerWidth - widgetWidth ==> p.left == left
    ensures 0 <= top <= containerHeight - widgetHeight ==> p.top == top
  {
    Point(ClampAxis(left, containerWidth, widgetWidth), ClampAxis(top, containerHeight, widgetHeight))
  }

  /** The two axes are clamped independently: the left does not depend on
      the top or the heights, and the top does not depend on the left or the
      widths. */
  lemma AxesIndependent(left: int, left2: int, top: int, top2: int, cw: int, cw2: int,
                        ch: int, ch2: int, ww: int, ww2: int, wh: int, wh2: int)
    ensures SetAbsolutePosition(left, top, cw, ch, ww, wh).left
         == SetAbsolutePosition(left, top2, cw, ch2, ww, wh2).left
    ensures SetAbsolutePosition(left, top, cw, ch, ww, wh).top
         == SetAbsolutePosition(left2, top, cw2, ch, ww2, wh).top
  {
  }
}

=== FILE: compaction.dfy ===
/** Compaction: `compactVertically` slides every widget, except the shadow,
    up to the topmost empty cell of its column; `compactHorizontally` slides
    it to the leftmost empty cell of its row. Both passes visit the cells row
    by row, and both are one rule along an `Axis`. */
module Compaction {
  import opened Wrappers
  import opened Positions
  import opened Grid
  import opened Moves
  import opened Cascade

  // ---------------------------------------------------------------------
  // Finding the first empty cell before a widget
  // ---------------------------------------------------------------------

  /** The scan of `findTopMostEmptyPositionAbove` and
      `findLeftMostEmptyPositionToLeftOf`: the first empty cell of `lane` at
      depth `k`, `k + 1`, ..., `d - 1`. */
  function FirstEmptyFrom(t: Table, a: Axis, lane: int, k: int, d: int): (r: Option<Position>)
    ensures r.Some? ==> r.value == At(a, lane, Depth(a, r.value)) && k <= Depth(a, r.value) < d
    ensures r.Some? ==> IsCellEmpty(t, r.value)
    ensures r.Some? ==> forall i :: k <= i < Depth(a, r.value) ==> !IsCellEmpty(t, At(a, lane, i))
    ensures r.None? ==> forall i :: k <= i < d ==> !IsCellEmpty(t, At(a, lane, i))
    decreases d - k
  {
    if k >= d then None
    else if IsCellEmpty(t, At(a, lane, k)) then Some(At(a, lane, k))
    else FirstEmptyFrom(t, a, lane, k + 1, d)
  }

  /** The first empty cell strictly before `p` in its lane, if any. */
  function FirstEmptyBefore(t: Table, a: Axis, p: Position): Option<Position> {
    FirstEmptyFrom(t, a, Lane(a, p), 0, Depth(a, p))
  }

  /** No empty cell lies before `p` in its lane: what `isRoomAbove` and
      `isRoomToLeft` deny. */
  predicate Gapless(t: Table, a: Axis, p: Position) {
    forall i :: 0 <= i < Depth(a, p) ==> !IsCellEmpty(t, At(a, Lane(a, p), i))
  }

  /** The search finds a cell exactly when the room test says there is room,
      and finds none exactly when the lane before `p` has no gap. */
  lemma FirstEmptyIsRoom(t: Table, a: Axis, p: Position)
    ensures FirstEmptyBefore(t, a, p).Some? <==> IsRoomBefore(t, a, p)
    ensures FirstEmptyBefore(t, a, p).None? <==> Gapless(t, a, p)
  {
    IsRoomBeforeSpec(t, a, p);
    var r := FirstEmptyBefore(t, a, p);
    if r.Some? {
      assert IsCellEmpty(t, At(a, Lane(a, p), Depth(a, r.value)));
    }
  }

  // ---------------------------------------------------------------------
  // One cell of a pass
  // ---------------------------------------------------------------------

  /** The table after the occupant of `p` moves onto the empty cell `q`. */
  function Slide(t: Table, p: Position, q: Position): Table
    requires p in t.cells
  {
    t.(cells := (t.cells - {p})[q := t.cells[p]], index := t.index[t.cells[p] := q])
  }

  /** A move onto an empty cell of the grid is a single slide. */
  lemma MoveOntoEmpty(t: Table, p: Position, q: Position)
    requires WF(t) && p in t.cells && IsCellEmpty(t, q)
    ensures MoveWidget(t, t.cells[p], p, q, MoveFuel(t, q)) == Some(Slide(t, p, q))
  {
    var w := t.cells[p];
    PlacedEffect(t, w, q);
    assert Detach(t, w) == t.cells - {p};
    MoveOntoVacant(t, w, p, q, MoveFuel(t, q));
  }

  /** A slide keeps the table well-formed, keeps its dimensions, and keeps
      every widget in the map and in the grid. */
  lemma SlideKeeps(t: Table, p: Position, q: Position)
    requires WF(t) && p in t.cells && IsCellEmpty(t, q)
    ensures var r := Slide(t, p, q);
      && WF(r) && r.index.Keys == t.index.Keys && GridItems(r) == GridItems(t)
  {
    var r := Slide(t, p, q);
    var w := t.cells[p];
    forall v | v in t.index
      ensures InGrid(r, v) <==> InGrid(t, v)
    {
      if v != w && InGrid(t, v) {
        assert t.index[v] != p;
      }
    }
  }

  /** The body of both compaction loops at the cell `p`: an occupied cell
      whose occupant is not the shadow, and which has an empty cell before
      it in its lane, has its occupant moved onto the first such cell. */
  function CompactCell(t: Table, a: Axis, p: Position): Table
    requires WF(t) && IsCellPresent(t, p)
  {
    if p !in t.cells then t
    else match FirstEmptyBefore(t, a, p)
      case None => t
      case Some(q) =>
        if t.shadow == Some(t.cells[p]) then t
        else
          MoveOntoEmpty(t, p, q);
          MoveWidget(t, t.cells[p], p, q, MoveFuel(t, q)).value
  }

  /** Whether the loop body moves anything at `p`. */
  predicate Slides(t: Table, a: Axis, p: Position) {
    p in t.cells && t.shadow != Some(t.cells[p]) && FirstEmptyBefore(t, a, p).Some?
  }

  /** The loop body in closed form: a slide to the first empty cell before
      `p` when there is one and the occupant is not the shadow; otherwise
      nothing changes. */
  lemma CompactCellSpec(t: Table, a: Axis, p: Position)
    requires WF(t) && IsCellPresent(t, p)
    ensures Slides(t, a, p) ==> CompactCell(t, a, p) == Slide(t, p, FirstEmptyBefore(t, a, p).value)
    ensures !Slides(t, a, p) ==> CompactCell(t, a, p) == t
  {
    if Slides(t, a, p) {
      MoveOntoEmpty(t, p, FirstEmptyBefore(t, a, p).value);
    }
  }

  // ---------------------------------------------------------------------
  // A whole pass
  // ---------------------------------------------------------------------

  /** Every widget but the shadow has no gap before it in its lane: the
      promise of the `compactVertically` and `compactHorizontally` flags. */
  predicate Compacted(t: Table, a: Axis) {
    forall p :: p in t.cells && t.shadow != Some(t.cells[p]) ==> Gapless(t, a, p)
  }

  /** Cutting lines off the grid without touching its cells keeps it
      compacted: a cell that was not empty before is still not empty. */
  lemma ShrinkKeepsCompacted(t: Table, r: Table, a: Axis)
    requires Compacted(t, a) && r.cells == t.cells && r.shadow == t.shadow
    requires r.rows <= t.rows && r.cols <= t.cols
    ensures Compacted(r, a)
  {
  }

  /** The cell holding the shadow, if any, holds it still. */
  predicate ShadowKept(t0: Table, t: Table) {
    forall p :: p in t0.cells && t0.shadow == Some(t0.cells[p]) ==> p in t.cells && t.cells[p] == t0.cells[p]
  }

  /** Every widget of the grid of `t0` is still mapped in `t`, in the same
      lane (column on the vertical axis, row on the horizontal one) and no
      deeper: a pass only slides widgets towards the front of their lane. */
  predicate InLanes(t0: Table, t: Table, a: Axis) {
    forall v :: v in GridItems(t0) ==>
      v in t.index && Lane(a, t.index[v]) == Lane(a, t0.index[v]) && Depth(a, t.index[v]) <= Depth(a, t0.index[v])
  }

  /** Every widget of the grid of `t0` is still mapped in `t`, in no lower
      row and no column further right. */
  predicate UpAndLeft(t0: Table, t: Table) {
    forall v :: v in GridItems(t0) ==>
      v in t.index && t.index[v].row <= t0.index[v].row && t.index[v].col <= t0.index[v].col
  }

  /** What a pass keeps between visiting cells: the table is well-formed
      with the same dimensions, settings and widgets; the shadow has not
      moved; every widget already visited (row-major before `next`) has no
      gap before it; and an already compacted table is untouched. */
  predicate PassInvariant(t0: Table, t: Table, a: Axis, next: Position) {
    && WF(t) && t.rows == t0.rows && t.cols == t0.cols
    && t.config == t0.config && t.shadow == t0.shadow && t.dragged == t0.dragged
    && t.index.Keys == t0.index.Keys && GridItems(t) == GridItems(t0)
    && ShadowKept(t0, t)
    && (forall p :: p in t.cells && RowMajorLess(p, next) && t.shadow != Some(t.cells[p]) ==> Gapless(t, a, p))
    && (Compacted(t0, a) ==> t == t0)
  }

  /** After a slide from `cur` to the first empty cell `q` before it, the
      widget at `q` has no gap before it, and neither has any widget that
      had none and that comes before `cur`. */
  lemma SlideGapless(t: Table, a: Axis, cur: Position, p: Position)
    requires WF(t) && IsCellPresent(t, cur) && cur in t.cells && FirstEmptyBefore(t, a, cur).Some?
    requires var q := FirstEmptyBefore(t, a, cur).value;
      p == q || (p in t.cells && RowMajorLess(p, cur) && Gapless(t, a, p))
    ensures Gapless(Slide(t, cur, FirstEmptyBefore(t, a, cur).value), a, p)
  {
    var q := FirstEmptyBefore(t, a, cur).value;
    var r := Slide(t, cur, q);
    forall i | 0 <= i < Depth(a, p)
      ensures !IsCellEmpty(r, At(a, Lane(a, p), i))
    {
      if p == q {
        assert !IsCellEmpty(t, At(a, Lane(a, cur), i));
      } else {
        assert !IsCellEmpty(t, At(a, Lane(a, p), i));
        assert At(a, Lane(a, p), i) != cur;
      }
    }
  }

  /** A slide to the first empty cell before `cur` stays in the lane and
      moves towards its front. */
  lemma SlideInLanes(t0: Table, t: Table, a: Axis, cur: Position)
    requires WF(t) && InLanes(t0, t, a) && cur in t.cells && FirstEmptyBefore(t, a, cur).Some?
    ensures InLanes(t0, Slide(t, cur, FirstEmptyBefore(t, a, cur).value), a)
  {
    var q := FirstEmptyBefore(t, a, cur).value;
    var r := Slide(t, cur, q);
    forall v | v in GridItems(t0)
      ensures v in r.index && Lane(a, r.index[v]) == Lane(a, t0.index[v])
      ensures Depth(a, r.index[v]) <= Depth(a, t0.index[v])
    {
      if v == t.cells[cur] {
        assert t.index[v] == cur && r.index[v] == q;
      }
    }
  }

  /** A slide keeps the invariant and extends it past `cur`. */
  lemma SlideStep(t0: Table, t: Table, a: Axis, cur: Position, next: Position)
    requires WF(t0) && PassInvariant(t0, t, a, cur) && IsCellPresent(t, cur) && Slides(t, a, cur)
    requires forall p :: IsCellPresent(t, p) ==> (RowMajorLess(p, next) <==> RowMajorLess(p, cur) || p == cur)
    ensures PassInvariant(t0, Slide(t, cur, FirstEmptyBefore(t, a, cur).value), a, next)
  {
    var q := FirstEmptyBefore(t, a, cur).value;
    var r := Slide(t, cur, q);
    SlideKeeps(t, cur, q);
    FirstEmptyIsRoom(t, a, cur);
    assert !Compacted(t0, a) by {
      assert t == t0 ==> !Gapless(t0, a, cur);
    }
    forall p | p in r.cells && RowMajorLess(p, next) && r.shadow != Some(r.cells[p])
      ensures Gapless(r, a, p)
    {
      SlideGapless(t, a, cur, p);
    }
  }

  /** Visiting a cell keeps every widget in its lane, no deeper. */
  lemma CompactCellInLanes(t0: Table, t: Table, a: Axis, cur: Position)
    requires WF(t) && InLanes(t0, t, a) && IsCellPresent(t, cur)
    ensures InLanes(t0, CompactCell(t, a, cur), a)
  {
    CompactCellSpec(t, a, cur);
    if Slides(t, a, cur) {
      SlideInLanes(t0, t, a, cur);
    }
  }

  /** Visiting one more cell keeps the invariant. */
  lemma CompactCellStep(t0: Table, t: Table, a: Axis, cur: Position, next: Position)
    requires WF(t0) && PassInvariant(t0, t, a, cur) && IsCellPresent(t, cur)
    requires forall p :: IsCellPresent(t, p) ==> (RowMajorLess(p, next) <==> RowMajorLess(p, cur) || p == cur)
    ensures PassInvariant(t0, CompactCell(t, a, cur), a, next)
  {
    CompactCellSpec(t, a, cur);
    if Slides(t, a, cur) {
      SlideStep(t0, t, a, cur, next);
    } else {
      FirstEmptyIsRoom(t, a, cur);
    }
  }

  /** In row-major order, the cells before `(r, c + 1)` are those before
      `(r, c)` and `(r, c)` itself. */
  lemma NextInRow(t: Table, r: int, c: int)
    ensures forall p :: IsCellPresent(t, p) ==>
      (RowMajorLess(p, Position(r, c + 1)) <==> RowMajorLess(p, Position(r, c)) || p == Position(r, c))
  {
  }

  /** Having visited the whole of row `r` is having visited every cell
      before row `r + 1`. */
  lemma RowDone(t0: Table, t: Table, a: Axis, r: int)
    requires PassInvariant(t0, t, a, Position(r, t.cols))
    ensures PassInvariant(t0, t, a, Position(r + 1, 0))
  {
    forall p | p in t.cells && RowMajorLess(p, Position(r + 1, 0)) && t.shadow != Some(t.cells[p])
      ensures Gapless(t, a, p)
    {
      assert RowMajorLess(p, Position(r, t.cols));
    }
  }

  /** The inner loop of a pass: `CompactCell` on every cell of row `r`. */
  method CompactRow(t0: Table, t1: Table, a: Axis, r: int) returns (t: Table)
    requires WF(t0) && 0 <= r < t1.rows
    requires PassInvariant(t0, t1, a, Position(r, 0)) && InLanes(t0, t1, a)
    ensures PassInvariant(t0, t, a, Position(r + 1, 0)) && InLanes(t0, t, a)
  {
    t := t1;
    var c := 0;
    while c < t.cols
      invariant 0 <= c <= t.cols
      invariant PassInvariant(t0, t, a, Position(r, c)) && InLanes(t0, t, a)
    {
      NextInRow(t, r, c);
      CompactCellStep(t0, t, a, Position(r, c), Position(r, c + 1));
      CompactCellInLanes(t0, t, a, Position(r, c));
      t := CompactCell(t, a, Position(r, c));
      c := c + 1;
    }
    RowDone(t0, t, a, r);
  }

  /** A row-major pass that applies `CompactCell` to every cell of the
      grid (`compactVertically` on the vertical axis, `compactHorizontally`
      on the horizontal one). Afterwards every widget but the shadow has no
      gap before it, every widget has stayed in its lane and only moved
      towards its front, nothing else about the table has changed, and a
      table that was already compacted comes back unchanged. */
  method CompactAlong(t0: Table, a: Axis) returns (t: Table)
    requires WF(t0)
    ensures WF(t) && t.rows == t0.rows && t.cols == t0.cols
    ensures t.config == t0.config && t.shadow == t0.shadow && t.dragged == t0.dragged
    ensures t.index.Keys == t0.index.Keys && GridItems(t) == GridItems(t0)
    ensures ShadowKept(t0, t) && InLanes(t0, t, a)
    ensures Compacted(t, a)
    ensures Compacted(t0, a) ==> t == t0
  {
    t := t0;
    var r := 0;
    while r < t.rows
      invariant 0 <= r <= t.rows
      invariant PassInvariant(t0, t, a, Position(r, 0)) && InLanes(t0, t, a)
    {
      t := CompactRow(t0, t, a, r);
      r := r + 1;
    }
  }

  /** `compactWidgets`: the vertical pass if configured, then the horizontal
      pass if configured. */
  method CompactWidgets(t0: Table) returns (t: Table)
    requires WF(t0)
    ensures WF(t) && t.rows == t0.rows && t.cols == t0.cols
    ensures t.config == t0.config && t.shadow == t0.shadow && t.dragged == t0.dragged
    ensures t.index.Keys == t0.index.Keys && GridItems(t) == GridItems(t0)
    ensures ShadowKept(t0, t)
    ensures t0.config.compactHorizontally ==> Compacted(t, Horizontal)
    ensures t0.config.compactVertically && !t0.config.compactHorizontally ==> Compacted(t, Vertical)
    ensures !t0.config.compactVertically && !t0.config.compactHorizontally ==> t == t0
    ensures t0.config.compactVertically && !t0.config.compactHorizontally ==> InLanes(t0, t, Vertical)
    ensures !t0.config.compactVertically && t0.config.compactHorizontally ==> InLanes(t0, t, Horizontal)
    ensures UpAndLeft(t0, t)
  {
    t := t0;
    if t.config.compactVertically {
      t := CompactAlong(t, Vertical);
    }
    var t1 := t;
    if t.config.compactHorizontally {
      t := CompactAlong(t, Horizontal);
      assert ShadowKept(t1, t);
    }
    assert InLanes(t0, t1, Vertical) && InLanes(t1, t, Horizontal);
  }
}

=== FILE: domutils.dfy ===
/** The pure helpers of `DomUtils`: `join`, `nullSafeEquals` and
    `newList(Object[])`. An object's `toString` is given as its string; a
    null list element makes `toString` throw, and `StringBuffer.append` of a
    null delimiter appends the four letters "null". */
module DomUtils {
  import opened Wrappers
  import opened Positions

  /** The delimiter as `StringBuffer.append` writes it. */
  function DelimiterText(d: Option<string>): string {
    if d.None? then "null" else d.value
  }

  /** The strings joined with `d` between each consecutive pair and none
      before the first or after the last. */
  function JoinSpec(xs: seq<string>, d: string): string
    decreases |xs|
  {
    if |xs| == 0 then ""
    else if |xs| == 1 then xs[0]
    else xs[0] + d + JoinSpec(xs[1..], d)
  }

  /** No element is null. */
  predicate NoNulls(xs: seq<Option<string>>) {
    forall i :: 0 <= i < |xs| ==> xs[i].Some?
  }

  /** The elements' strings, once none is null. */
  function Strings(xs: seq<Option<string>>): (ss: seq<string>)
    requires NoNulls(xs)
    ensures |ss| == |xs| && forall i :: 0 <= i < |xs| ==> ss[i] == xs[i].value
  {
    seq(|xs|, i requires 0 <= i < |xs| => xs[i].value)
  }

  /** Appending one more string adds a delimiter and the string. */
  lemma {:induction false} JoinSnoc(xs: seq<string>, y: string, d: string)
    requires |xs| >= 1
    ensures JoinSpec(xs + [y], d) == JoinSpec(xs, d) + d + y
    decreases |xs|
  {
    if |xs| > 1 {
      assert (xs + [y])[1..] == xs[1..] + [y];
      JoinSnoc(xs[1..], y, d);
    } else {
      assert xs + [y] == [xs[0], y];
      assert [xs[0], y][1..] == [y];
    }
  }

  /** The total length of the strings. */
  function TotalLength(xs: seq<string>): nat
    decreases |xs|
  {
    if |xs| == 0 then 0 else |xs[0]| + TotalLength(xs[1..])
  }

  /** `n >= 1` strings join into their letters and exactly `n - 1`
      delimiters; the empty list joins into the empty string. */
  lemma {:induction false} JoinLength(xs: seq<string>, d: string)
    ensures |xs| == 0 ==> JoinSpec(xs, d) == ""
    ensures |xs| >= 1 ==> |JoinSpec(xs, d)| == TotalLength(xs) + (|xs| - 1) * |d|
    decreases |xs|
  {
    if |xs| > 1 {
      JoinLength(xs[1..], d);
      assert TotalLength(xs) == |xs[0]| + TotalLength(xs[1..]);
    } else if |xs| == 1 {
      assert TotalLength(xs[1..]) == 0;
    }
  }

  /** The first string opens the joined string and, with more to come, a
      delimiter follows it. */
  lemma JoinStartsWithFirst(xs: seq<string>, d: string)
    requires |xs| >= 1
    ensures JoinSpec(xs, d)[..|xs[0]|] == xs[0]
    ensures |xs| >= 2 ==> JoinSpec(xs, d)[|xs[0]|..|xs[0]| + |d|] == d
  {
  }

  /** `join`: append each element's string, and the delimiter after every
      element but the last. A null element throws (`None`). */
  method Join(xs: seq<Option<string>>, d: Option<string>) returns (r: Option<string>)
    ensures r.None? <==> !NoNulls(xs)
    ensures r.Some? ==> r.value == JoinSpec(Strings(xs), DelimiterText(d))
  {
    var buffer := "";
    var i := 0;
    ghost var done: seq<string> := [];
    while i < |xs|
      invariant 0 <= i <= |xs| && |done| == i
      invariant forall j :: 0 <= j < i ==> xs[j].Some? && done[j] == xs[j].value
      invariant i == 0 ==> buffer == ""
      invariant 0 < i ==> buffer == JoinSpec(done, DelimiterText(d)) + (if i < |xs| then DelimiterText(d) else "")
    {
      if xs[i].None? {
        return None;
      }
      if i > 0 {
        JoinSnoc(done, xs[i].value, DelimiterText(d));
      }
      buffer := buffer + xs[i].value;
      if i < |xs| - 1 {
        buffer := buffer + DelimiterText(d);
      }
      done := done + [xs[i].value];
      i := i + 1;
    }
    assert done == Strings(xs);
    return Some(buffer);
  }

  /** `o.equals(other)` for a non-null `o`: a `Position` compares by its
      text, any other object by identity. */
  function ObjEquals(o: Obj, other: Obj): bool
    requires !o.Null?
  {
    match o
    case APosition(p) => Equals(p, other)
    case OtherObject(_) => o == other
  }

  /** `nullSafeEquals`: null equals only null; otherwise ask `equals`. */
  function NullSafeEquals(o1: Obj, o2: Obj): (b: bool)
    ensures o1.Null? ==> (b <==> o2.Null?)
    ensures !o1.Null? ==> b == ObjEquals(o1, o2)
  {
    if o1.Null? then o2.Null? else ObjEquals(o1, o2)
  }

  /** On the objects modelled here `nullSafeEquals` is an equivalence that
      holds exactly when both are null, both are the same position by
      coordinates, or both are the same other object. */
  lemma NullSafeEqualsIsEquivalence(o1: Obj, o2: Obj, o3: Obj)
    ensures NullSafeEquals(o1, o2) <==>
      match o1
      case Null => o2.Null?
      case APosition(p) => o2.APosition? && o2.pos.row == p.row && o2.pos.col == p.col
      case OtherObject(_) => o2 == o1
    ensures NullSafeEquals(o1, o1)
    ensures NullSafeEquals(o1, o2) ==> NullSafeEquals(o2, o1)
    ensures NullSafeEquals(o1, o2) && NullSafeEquals(o2, o3) ==> NullSafeEquals(o1, o3)
  {
    if o1.APosition? {
      EqualsReflexive(o1.pos);
      if o2.APosition? {
        EqualsIffSameCoordinates(o1.pos, o2.pos);
        EqualsIffSameCoordinates(o2.pos, o1.pos);
        if o3.APosition? {
          EqualsIffSameCoordinates(o2.pos, o3.pos);
          EqualsIffSameCoordinates(o1.pos, o3.pos);
        }
      }
    }
  }

  /** `newList(Object[])`: copy the array into a fresh list, in order. */
  method NewList<T>(objects: seq<T>) returns (list: seq<T>)
    ensures |list| == |objects|
    ensures forall i :: 0 <= i < |objects| ==> list[i] == objects[i]
  {
    list := [];
    var i := 0;
    while i < |objects|
      invariant 0 <= i <= |objects| && list == objects[..i]
    {
      list := list + [objects[i]];
      i := i + 1;
    }
  }
}

=== FILE: grid.dfy ===
/** The state of an arrangeable table: a rows x cols grid whose cells are
    empty or hold one item, the item -> position map kept beside it, the
    configuration fixed at construction, and the drag-session fields. The
    cell-level operations of the underlying grid (overwrite a cell, remove a
    widget, resize) are written here by their effect on cells. */
module Grid {
  import opened Wrappers
  import opened Positions

  /** An opaque, identity-compared handle for a widget placed in the table. */
  datatype Item = Item(id: nat)

  /** Where a displaced occupant goes when another item is moved onto it. */
  datatype SqueezeStrategy = OnlyVertical | OnlyHorizontal | Swap

  datatype Config = Config(
    minRows: nat,
    minCols: nat,
    compactVertically: bool,
    compactHorizontally: bool,
    strategy: SqueezeStrategy)

  /** `cells` holds the occupied cells only (a missing key is an empty cell).
      `index` is the widget -> position map; an entry may be stale, pointing
      at a cell that no longer holds its item. */
  datatype Table = Table(
    config: Config,
    rows: nat,
    cols: nat,
    cells: map<Position, Item>,
    index: map<Item, Position>,
    shadow: Option<Item>,
    dragged: Option<Item>)

  predicate NonNegative(p: Position) {
    p.row >= 0 && p.col >= 0
  }

  predicate IsCellPresent(t: Table, p: Position) {
    0 <= p.row < t.rows && 0 <= p.col < t.cols
  }

  /** A cell outside the grid is never empty. */
  predicate IsCellEmpty(t: Table, p: Position) {
    IsCellPresent(t, p) && p !in t.cells
  }

  /** The exceptions the table can raise. `CascadeTooLong` stands for a
      cascade that would need more than `MoveFuel` moves. */
  datatype Fault = NullPointer | IndexOutOfBounds | CascadeTooLong

  /** The occupant of a cell: `None` for an empty cell or one outside the
      grid. Every internal lookup is of a cell known to be in the grid. */
  function Occupant(t: Table, p: Position): (r: Option<Item>)
    ensures r.Some? <==> p in t.cells
    ensures r.Some? ==> t.cells[p] == r.value
  {
    if p in t.cells then Some(t.cells[p]) else None
  }

  /** `getWidget(Position)`: the occupant of a cell of the grid, or null for
      an empty one. The underlying grid checks the bounds first and throws
      `IndexOutOfBoundsException` for a cell outside it. */
  function GetWidget(t: Table, p: Position): (r: Result<Option<Item>, Fault>)
    ensures !IsCellPresent(t, p) <==> r == Failure(IndexOutOfBounds)
    ensures r.Success? ==> (r.value.Some? <==> p in t.cells)
    ensures r.Success? && r.value.Some? ==> t.cells[p] == r.value.value
  {
    if !IsCellPresent(t, p) then Failure(IndexOutOfBounds) else Success(Occupant(t, p))
  }

  /** `isCellEmpty` agrees with `getWidget`: a cell is empty exactly when the
      lookup succeeds and finds no widget, and a well-formed table never
      fails to look up an occupied cell. */
  lemma EmptyIffNoWidget(t: Table, p: Position)
    ensures IsCellEmpty(t, p) <==> GetWidget(t, p) == Success(None)
    ensures WF(t) && p in t.cells ==> GetWidget(t, p) == Success(Some(t.cells[p]))
  {
  }

  /** The widget is in the grid at the position the map records for it. */
  predicate InGrid(t: Table, w: Item) {
    w in t.index && t.index[w] in t.cells && t.cells[t.index[w]] == w
  }

  /** Every occupied cell is inside the grid, and the map records its
      occupant's position exactly (so no item occupies two cells). */
  predicate WF(t: Table) {
    && (forall p :: p in t.cells ==> IsCellPresent(t, p))
    && (forall p :: p in t.cells ==> t.cells[p] in t.index && t.index[t.cells[p]] == p)
  }

  /** No stale entries: every mapped widget is where the map says. */
  predicate Consistent(t: Table) {
    WF(t) && forall w :: w in t.index ==> InGrid(t, w)
  }

  /** The widgets that sit where the map says they are. */
  function GridItems(t: Table): set<Item> {
    set v | v in t.index && InGrid(t, v)
  }

  /** Consistency is exactly: every mapped widget is one of the grid's. */
  lemma ConsistentIffItems(t: Table)
    ensures Consistent(t) <==> WF(t) && GridItems(t) == t.index.Keys
  {
    if WF(t) && GridItems(t) == t.index.Keys {
      forall w | w in t.index
        ensures InGrid(t, w)
      {
        assert w in GridItems(t);
      }
    }
  }

  /** The grid never has fewer rows or columns than configured. */
  predicate AtLeastMinimum(t: Table) {
    t.rows >= t.config.minRows && t.cols >= t.config.minCols
  }

  /** In a well-formed table, the map agrees with the cells both ways. */
  lemma InGridIffHeld(t: Table, w: Item)
    requires WF(t)
    ensures InGrid(t, w) <==> exists p :: p in t.cells && t.cells[p] == w
  {
  }

  /** Consistency is the two-way agreement between the grid and the map. */
  lemma ConsistentIsBidirectional(t: Table)
    requires Consistent(t)
    ensures forall p, w :: p in t.cells && t.cells[p] == w <==> w in t.index && t.index[w] == p
  {
  }

  // ---------------------------------------------------------------------
  // Axes: the vertical and horizontal rules are one rule on two axes
  // ---------------------------------------------------------------------

  /** `Vertical` moves along rows within a column; `Horizontal` moves along
      columns within a row. */
  datatype Axis = Vertical | Horizontal

  /** The coordinate that moves along the axis. */
  function Depth(a: Axis, p: Position): int {
    if a == Vertical then p.row else p.col
  }

  /** The coordinate that stays fixed along the axis. */
  function Lane(a: Axis, p: Position): int {
    if a == Vertical then p.col else p.row
  }

  function At(a: Axis, lane: int, depth: int): (p: Position)
    ensures Lane(a, p) == lane && Depth(a, p) == depth
  {
    if a == Vertical then Position(depth, lane) else Position(lane, depth)
  }

  lemma AtOfCoordinates(a: Axis, p: Position)
    ensures At(a, Lane(a, p), Depth(a, p)) == p
  {
  }

  /** The number of positions along the axis (rows for vertical). */
  function Extent(t: Table, a: Axis): nat {
    if a == Vertical then t.rows else t.cols
  }

  /** The number of lanes across the axis (columns for vertical). */
  function Breadth(t: Table, a: Axis): nat {
    if a == Vertical then t.cols else t.rows
  }

  function MinExtent(t: Table, a: Axis): nat {
    if a == Vertical then t.config.minRows else t.config.minCols
  }

  lemma PresentAlongAxis(t: Table, a: Axis, p: Position)
    ensures IsCellPresent(t, p) <==> 0 <= Depth(a, p) < Extent(t, a) && 0 <= Lane(a, p) < Breadth(t, a)
  {
  }

  /** One step back along the axis: `subtractRow` or `subtractCol`. */
  function Back(a: Axis, p: Position): (q: Position)
    ensures Lane(a, q) == Lane(a, p) && Depth(a, q) == Depth(a, p) - 1
  {
    if a == Vertical then SubtractRow(p) else SubtractCol(p)
  }

  /** One step forward along the axis: `addRow` or `addCol`. */
  function Forward(a: Axis, p: Position): (q: Position)
    ensures Lane(a, q) == Lane(a, p) && Depth(a, q) == Depth(a, p) + 1
  {
    if a == Vertical then AddRow(p) else AddCol(p)
  }

  // ---------------------------------------------------------------------
  // Resizing
  // ---------------------------------------------------------------------

  /** `resizeRows(n)`: rows at index n and beyond are dropped with their
      contents; new rows are empty. */
  function ResizeRows(t: Table, n: nat): (r: Table)
    ensures r.rows == n && r.cols == t.cols
    ensures r.config == t.config && r.index == t.index
    ensures r.shadow == t.shadow && r.dragged == t.dragged
    ensures forall p :: p in r.cells <==> p in t.cells && p.row < n
    ensures forall p :: p in r.cells ==> r.cells[p] == t.cells[p]
    ensures WF(t) ==> WF(r)
  {
    t.(rows := n, cells := map p | p in t.cells && p.row < n :: t.cells[p])
  }

  /** `resizeColumns(n)`: columns at index n and beyond are dropped. */
  function ResizeColumns(t: Table, n: nat): (r: Table)
    ensures r.cols == n && r.rows == t.rows
    ensures r.config == t.config && r.index == t.index
    ensures r.shadow == t.shadow && r.dragged == t.dragged
    ensures forall p :: p in r.cells <==> p in t.cells && p.col < n
    ensures forall p :: p in r.cells ==> r.cells[p] == t.cells[p]
    ensures WF(t) ==> WF(r)
  {
    t.(cols := n, cells := map p | p in t.cells && p.col < n :: t.cells[p])
  }

  function ResizeAlong(t: Table, a: Axis, n: nat): (r: Table)
    ensures Extent(r, a) == n && Breadth(r, a) == Breadth(t, a)
    ensures r.config == t.config && r.index == t.index
    ensures r.shadow == t.shadow && r.dragged == t.dragged
    ensures forall p :: p in r.cells <==> p in t.cells && Depth(a, p) < n
    ensures forall p :: p in r.cells ==> r.cells[p] == t.cells[p]
    ensures WF(t) ==> WF(r)
  {
    if a == Vertical then ResizeRows(t, n) else ResizeColumns(t, n)
  }

  /** The drop targets `fillDropTargets` creates: one per cell, row by row. */
  function DropTargets(rows: nat, cols: nat): (s: seq<Position>)
    ensures |s| == rows * cols
    ensures forall p :: p in s <==> 0 <= p.row < rows && 0 <= p.col < cols
    ensures forall i, j :: 0 <= i < j < |s| ==> RowMajorLess(s[i], s[j])
    decreases rows
  {
    if rows == 0 then []
    else
      var prev := DropTargets(rows - 1, cols);
      var last := seq(cols, c => Position(rows - 1, c));
      assert forall p :: p in last <==> p.row == rows - 1 && 0 <= p.col < cols by {
        forall p: Position | p.row == rows - 1 && 0 <= p.col < cols
          ensures p in last
        {
          assert last[p.col] == p;
        }
      }
      prev + last
  }

  /** Strict row-major order on positions. */
  predicate RowMajorLess(p: Position, q: Position) {
    p.row < q.row || (p.row == q.row && p.col < q.col)
  }

  /** `ensurePositionExists`: the grid grows so that `p` lies inside it; it
      never shrinks. Growing through `resizeRows`/`resizeColumns` only adds
      empty lines, so the cells are untouched (`EnsureIsResize`). */
  function EnsurePositionExists(t: Table, p: Position): (r: Table)
    requires NonNegative(p)
    ensures IsCellPresent(r, p)
    ensures r.rows >= t.rows && r.cols >= t.cols
    ensures p.row < t.rows ==> r.rows == t.rows
    ensures p.col < t.cols ==> r.cols == t.cols
    ensures r.cells == t.cells && r.config == t.config && r.index == t.index
    ensures r.shadow == t.shadow && r.dragged == t.dragged
    ensures IsCellPresent(t, p) ==> r == t
  {
    t.(rows := if p.row >= t.rows then p.row + 1 else t.rows,
       cols := if p.col >= t.cols then p.col + 1 else t.cols)
  }

  /** On a well-formed table, growing is exactly the two resizes the source
      performs, rows first: the resizes drop nothing, and the table stays
      well-formed. */
  lemma EnsureIsResize(t: Table, p: Position)
    requires WF(t) && NonNegative(p)
    ensures var t1 := if p.row >= t.rows then ResizeRows(t, p.row + 1) else t;
      EnsurePositionExists(t, p) == if p.col >= t1.cols then ResizeColumns(t1, p.col + 1) else t1
    ensures EnsurePositionExists(t, p).rows == if p.row >= t.rows then p.row + 1 else t.rows
    ensures EnsurePositionExists(t, p).cols == if p.col >= t.cols then p.col + 1 else t.cols
    ensures WF(EnsurePositionExists(t, p))
  {
    var t1 := if p.row >= t.rows then ResizeRows(t, p.row + 1) else t;
    assert t1.cells == t.cells;
    var t2 := if p.col >= t1.cols then ResizeColumns(t1, p.col + 1) else t1;
    assert t2.cells == t.cells;
  }

  // ---------------------------------------------------------------------
  // Placing and removing widgets
  // ---------------------------------------------------------------------

  /** The cells once `w` is detached from the cell the map records for it, if
      it is there (a widget has at most one parent cell). */
  function Detach(t: Table, w: Item): map<Position, Item> {
    if InGrid(t, w) then t.cells - {t.index[w]} else t.cells
  }

  /** Detaching empties `w`'s cell, if it held `w`, and no other. */
  lemma DetachSpec(t: Table, w: Item)
    ensures forall q :: q in Detach(t, w) <==> q in t.cells && !(InGrid(t, w) && q == t.index[w])
    ensures forall q :: q in Detach(t, w) ==> Detach(t, w)[q] == t.cells[q]
  {
  }

  /** `setWidget(widget, position)`: grow the grid if needed, overwrite the
      cell (the previous occupant leaves the grid but keeps its map entry),
      and record the new position for the widget. */
  function SetWidget(t: Table, w: Item, p: Position): (r: Table)
    requires NonNegative(p)
    ensures p in r.cells && r.cells[p] == w
    ensures w in r.index && r.index[w] == p
    ensures IsCellPresent(r, p) && r.rows >= t.rows && r.cols >= t.cols
    ensures r.config == t.config && r.shadow == t.shadow && r.dragged == t.dragged
  {
    var t1 := EnsurePositionExists(t, p);
    t1.(cells := Detach(t1, w)[p := w], index := t1.index[w := p])
  }

  /** What else `setWidget` changes: only `w`'s map entry, and on a
      well-formed table only the target cell and `w`'s old cell; the table
      stays well-formed. */
  lemma SetWidgetFrame(t: Table, w: Item, p: Position)
    requires NonNegative(p)
    ensures var r := SetWidget(t, w, p);
      && r.rows == EnsurePositionExists(t, p).rows && r.cols == EnsurePositionExists(t, p).cols
      && r.index.Keys == t.index.Keys + {w}
      && (forall v :: v in t.index && v != w ==> r.index[v] == t.index[v])
      && (WF(t) ==> WF(r))
      && (WF(t) ==> forall q :: q in r.cells ==> q == p || (q in t.cells && t.cells[q] != w))
      && (WF(t) ==> forall q :: q in t.cells && q != p && t.cells[q] != w ==> q in r.cells && r.cells[q] == t.cells[q])
  {
    DetachSpec(EnsurePositionExists(t, p), w);
  }

  /** `removeWithoutCompacting(widget)`: the grid reports whether it held the
      widget at its recorded position; if so that cell is cleared and the map
      entry dropped. */
  function RemoveWithoutCompacting(t: Table, w: Item): (r: (Table, bool))
    ensures !r.1 ==> r.0 == t
    ensures !InGrid(r.0, w)
    ensures r.0.rows == t.rows && r.0.cols == t.cols && r.0.config == t.config
    ensures r.0.shadow == t.shadow && r.0.dragged == t.dragged
  {
    if InGrid(t, w) then (t.(cells := t.cells - {t.index[w]}, index := t.index - {w}), true)
    else (t, false)
  }

  /** On a well-formed table the report is true exactly when some cell held
      the widget; afterwards no cell holds it, every other cell and map entry
      is unchanged, and the table is still well-formed. */
  lemma RemoveWithoutCompactingSpec(t: Table, w: Item)
    requires WF(t)
    ensures var (r, removed) := RemoveWithoutCompacting(t, w);
      && (removed <==> exists p :: p in t.cells && t.cells[p] == w)
      && WF(r)
      && (forall q :: q in r.cells ==> r.cells[q] != w)
      && (forall q :: q in t.cells && t.cells[q] != w ==> q in r.cells && r.cells[q] == t.cells[q])
      && (forall q :: q in r.cells ==> q in t.cells)
      && r.index == (if removed then t.index - {w} else t.index)
  {
    InGridIffHeld(t, w);
  }

  /** `findWidget`: the recorded position, possibly stale, or null. */
  function FindWidget(t: Table, w: Item): (r: Option<Position>)
    ensures r.Some? <==> w in t.index
    ensures r.Some? ==> r.value == t.index[w]
  {
    if w in t.index then Some(t.index[w]) else None
  }

  /** Placing a widget and then looking it up gives the position back. */
  lemma SetThenFind(t: Table, w: Item, p: Position)
    requires NonNegative(p)
    ensures FindWidget(SetWidget(t, w, p), w) == Some(p)
    ensures GetWidget(SetWidget(t, w, p), p) == Success(Some(w))
  {
  }
}

=== FILE: listener.dfy ===
/** `DragDropListener`: while a widget is dragged it watches which drop
    target the mouse hovers over and tells a handler. Hit-testing is
    throttled by a counter, the hover callback is edge-triggered (it fires
    only when the hovered target changes), and the end of a drag reports the
    target dropped on. Widgets are identified by number; their page geometry
    and the document's scroll offsets are supplied as a `Page`. The handler's
    callbacks are returned as a list of events. */
module Listener {
  import opened Wrappers

  /** `INTERVAL_BETWEEN_CHECKS`. */
  const IntervalBetweenChecks: nat := 10

  /** A widget's absolute box: left, top, width and height in pixels. */
  datatype Rect = Rect(left: int, top: int, width: int, height: int)

  /** What the browser knows at the time of a call: each widget's box and
      how far the document is scrolled. */
  datatype Page = Page(layout: nat -> Rect, scrollLeft: int, scrollTop: int)

  /** The listener's fields: the drop targets in order, the throttling
      counter and the target last reported as hovered (null: `None`). */
  datatype Listener = Listener(dropTargets: seq<nat>, timesSinceLastCheck: nat, active: Option<nat>)

  /** A call of the handler: `handleHoverWidget` or `handleDropWidget`. */
  datatype Event = Hover(target: Option<nat>) | Drop(target: Option<nat>)

  /** A mouse position on the screen, as passed to the drag callbacks. */
  datatype Mouse = Mouse(x: int, y: int)

  /** The constructor: no target hovered yet, counter at zero. */
  function NewListener(dropTargets: seq<nat>): (l: Listener)
    ensures l.dropTargets == dropTargets && Fresh(l)
  {
    Listener(dropTargets, 0, None)
  }

  /** A listener that has not yet seen a drag. */
  predicate Fresh(l: Listener) {
    l.timesSinceLastCheck == 0 && l.active.None?
  }

  // ---------------------------------------------------------------------
  // Hit-testing
  // ---------------------------------------------------------------------

  /** `inRectangle`: strictly inside the box; the edges are outside. */
  predicate InRectangle(x: int, y: int, r: Rect) {
    x > r.left && x < r.left + r.width && y > r.top && y < r.top + r.height
  }

  /** No point on a box's edge is inside it, and a box narrower or lower than
      two pixels holds no point at all. */
  lemma EdgesAreOutside(x: int, y: int, r: Rect)
    ensures x == r.left || x == r.left + r.width ==> !InRectangle(x, y, r)
    ensures y == r.top || y == r.top + r.height ==> !InRectangle(x, y, r)
    ensures r.width < 2 || r.height < 2 ==> !InRectangle(x, y, r)
  {
  }

  /** A box at least two pixels wide and high holds the point just inside
      its top-left corner. */
  lemma CornerIsInside(r: Rect)
    requires r.width >= 2 && r.height >= 2
    ensures InRectangle(r.left + 1, r.top + 1, r)
  {
  }

  /** `inWidget`: the point is inside the widget's current box. */
  predicate InWidget(page: Page, x: int, y: int, w: nat) {
    InRectangle(x, y, page.layout(w))
  }

  /** The index of the first target, from `i` on, whose box holds the point:
      the loop of `findHoverWidget`. */
  function FirstHitFrom(page: Page, targets: seq<nat>, x: int, y: int, i: nat): (k: Option<nat>)
    requires i <= |targets|
    ensures k.Some? ==> i <= k.value < |targets| && InWidget(page, x, y, targets[k.value])
    ensures k.Some? ==> forall j :: i <= j < k.value ==> !InWidget(page, x, y, targets[j])
    ensures k.None? ==> forall j :: i <= j < |targets| ==> !InWidget(page, x, y, targets[j])
    decreases |targets| - i
  {
    if i == |targets| then None
    else if InWidget(page, x, y, targets[i]) then Some(i)
    else FirstHitFrom(page, targets, x, y, i + 1)
  }

  /** `findHoverWidget`: shift the mouse by the scroll offsets; keep the
      active target while it still holds the point; otherwise the first
      target in list order that holds it; otherwise none. */
  function FindHoverWidget(l: Listener, page: Page, m: Mouse): (r: Option<nat>)
    ensures var x, y := m.x + page.scrollLeft, m.y + page.scrollTop;
      && (r.Some? ==> InWidget(page, x, y, r.value))
      && (r.Some? && r != l.active ==> r.value in l.dropTargets)
      && (l.active.Some? && InWidget(page, x, y, l.active.value) ==> r == l.active)
      && (r.None? <==>
           (l.active.None? || !InWidget(page, x, y, l.active.value))
           && forall j :: 0 <= j < |l.dropTargets| ==> !InWidget(page, x, y, l.dropTargets[j]))
  {
    var x, y := m.x + page.scrollLeft, m.y + page.scrollTop;
    if l.active.Some? && InWidget(page, x, y, l.active.value) then l.active
    else
      match FirstHitFrom(page, l.dropTargets, x, y, 0)
      case None => None
      case Some(k) => Some(l.dropTargets[k])
  }

  /** When the active target no longer holds the point, the result is the
      first target in list order that does. */
  lemma FindHoverFirstInOrder(l: Listener, page: Page, m: Mouse, i: nat)
    requires var x, y := m.x + page.scrollLeft, m.y + page.scrollTop;
      && (l.active.None? || !InWidget(page, x, y, l.active.value))
      && i < |l.dropTargets| && InWidget(page, x, y, l.dropTargets[i])
      && forall j :: 0 <= j < i ==> !InWidget(page, x, y, l.dropTargets[j])
    ensures FindHoverWidget(l, page, m) == Some(l.dropTargets[i])
  {
  }

  /** Searching again with the found target as the active one finds it
      again: the search is stable while the mouse stays put. */
  lemma FindHoverStable(l: Listener, page: Page, m: Mouse)
    ensures var r := FindHoverWidget(l, page, m);
      r.Some? ==> FindHoverWidget(l.(active := r), page, m) == r
  {
  }

  /** The scroll offsets only shift the mouse: searching with them is
      searching at the shifted point of an unscrolled page. */
  lemma ScrollShiftsMouse(l: Listener, page: Page, m: Mouse)
    ensures FindHoverWidget(l, page, m)
         == FindHoverWidget(l, page.(scrollLeft := 0, scrollTop := 0),
                            Mouse(m.x + page.scrollLeft, m.y + page.scrollTop))
  {
  }

  // ---------------------------------------------------------------------
  // The drag callbacks
  // ---------------------------------------------------------------------

  /** `drag`: once the counter exceeds the interval, hit-test, report the
      hovered target if it changed and reset the counter; otherwise only
      count the call. */
  function Drag(l: Listener, page: Page, m: Mouse): (r: (Listener, seq<Event>))
    ensures r.0.dropTargets == l.dropTargets
    ensures l.timesSinceLastCheck <= IntervalBetweenChecks ==>
      r == (l.(timesSinceLastCheck := l.timesSinceLastCheck + 1), [])
    ensures l.timesSinceLastCheck > IntervalBetweenChecks ==>
      && r.0.timesSinceLastCheck == 0
      && r.0.active == FindHoverWidget(l, page, m)
      && (r.1 == [] <==> FindHoverWidget(l, page, m) == l.active)
      && (r.1 != [] ==> r.1 == [Hover(FindHoverWidget(l, page, m))])
  {
    if l.timesSinceLastCheck > IntervalBetweenChecks then
      var target := FindHoverWidget(l, page, m);
      if l.active != target then
        (l.(active := target, timesSinceLastCheck := 0), [Hover(target)])
      else
        (l.(timesSinceLastCheck := 0), [])
    else
      (l.(timesSinceLastCheck := l.timesSinceLastCheck + 1), [])
  }

  /** `endDragging`: report the target under the mouse, even none, and
      forget the active target. The counter carries over. */
  function EndDragging(l: Listener, page: Page, m: Mouse): (r: (Listener, seq<Event>))
    ensures r.1 == [Drop(FindHoverWidget(l, page, m))]
    ensures var x, y := m.x + page.scrollLeft, m.y + page.scrollTop;
      && (r.1[0].target.Some? ==> InWidget(page, x, y, r.1[0].target.value))
      && (r.1[0].target.None? <==>
           (l.active.None? || !InWidget(page, x, y, l.active.value))
           && forall j :: 0 <= j < |l.dropTargets| ==> !InWidget(page, x, y, l.dropTargets[j]))
    ensures r.0 == l.(active := None)
  {
    (l.(active := None), [Drop(FindHoverWidget(l, page, m))])
  }

  /** Dropping where the last hit-test was made reports the target that
      hit-test left active: the drop agrees with the last hover. */
  lemma DropAfterCheck(l: Listener, page: Page, m: Mouse)
    requires l.timesSinceLastCheck > IntervalBetweenChecks
    ensures var l1 := Drag(l, page, m).0;
      EndDragging(l1, page, m).1 == [Drop(l1.active)]
  {
    var l1 := Drag(l, page, m).0;
    FindHoverStable(l, page, m);
    assert FindHoverWidget(l1, page, m) == FindHoverWidget(l.(active := l1.active), page, m);
  }

  /** `startDragging`: nothing happens. */
  function StartDragging(l: Listener, m: Mouse): Listener {
    l
  }

  /** A sequence of `drag` calls on one page, with the events they raise. */
  function DragAll(l: Listener, page: Page, ms: seq<Mouse>): (Listener, seq<Event>)
    decreases |ms|
  {
    if |ms| == 0 then (l, [])
    else
      var (l1, e1) := Drag(l, page, ms[0]);
      var (l2, e2) := DragAll(l1, page, ms[1..]);
      (l2, e1 + e2)
  }

  /** Every event in `evs` is a hover, and each names a different target
      from the one before it (the first differs from `prev`). */
  predicate HoversChange(prev: Option<nat>, evs: seq<Event>)
    decreases |evs|
  {
    |evs| == 0 || (evs[0].Hover? && evs[0].target != prev && HoversChange(evs[0].target, evs[1..]))
  }

  /** The last target reported in `evs`, or `prev` if none is. */
  function LastReported(prev: Option<nat>, evs: seq<Event>): Option<nat>
    decreases |evs|
  {
    if |evs| == 0 then prev else LastReported(evs[0].target, evs[1..])
  }

  /** Hover callbacks are edge-triggered: over any run of drags, the hover
      events never repeat a target back to back, and the active target is
      always the last one reported. */
  lemma {:induction false} DragAllHoversChange(l: Listener, page: Page, ms: seq<Mouse>)
    ensures var (r, evs) := DragAll(l, page, ms);
      HoversChange(l.active, evs) && r.active == LastReported(l.active, evs)
    decreases |ms|
  {
    if |ms| > 0 {
      var (l1, e1) := Drag(l, page, ms[0]);
      var (l2, e2) := DragAll(l1, page, ms[1..]);
      DragAllHoversChange(l1, page, ms[1..]);
      if e1 != [] {
        assert (e1 + e2)[1..] == e2;
      } else {
        assert e1 + e2 == e2;
      }
    }
  }

  /** The number of the drag calls in `ms` that hit-test: those that find
      the counter past the interval. */
  function HitTests(l: Listener, page: Page, ms: seq<Mouse>): nat
    decreases |ms|
  {
    if |ms| == 0 then 0
    else (if l.timesSinceLastCheck > IntervalBetweenChecks then 1 else 0)
         + HitTests(Drag(l, page, ms[0]).0, page, ms[1..])
  }

  /** Drag calls hit-test only when the counter exceeds the interval, which
      after the reset means once every `IntervalBetweenChecks + 2` calls:
      from a counter of at most 11, `n` calls make exactly `(n + c) / 12`
      hit-tests and leave the counter at `(n + c) % 12`. Only a hit-test can
      report a hover, so there are at most that many hover events. */
  lemma {:induction false} ChecksEvery12(l: Listener, page: Page, ms: seq<Mouse>)
    requires l.timesSinceLastCheck <= IntervalBetweenChecks + 1
    ensures var c := l.timesSinceLastCheck;
      && HitTests(l, page, ms) == (|ms| + c) / (IntervalBetweenChecks + 2)
      && DragAll(l, page, ms).0.timesSinceLastCheck == (|ms| + c) % (IntervalBetweenChecks + 2)
    ensures |DragAll(l, page, ms).1| <= HitTests(l, page, ms)
    decreases |ms|
  {
    if |ms| > 0 {
      var l1 := Drag(l, page, ms[0]).0;
      ChecksEvery12(l1, page, ms[1..]);
    }
  }

  /** `startDragging` keeps the counter: drags split by a new start count
      on as if they were one run. */
  lemma {:induction false} CounterCarriesOver(l: Listener, page: Page, a: seq<Mouse>, m: Mouse, b: seq<Mouse>)
    ensures DragAll(StartDragging(DragAll(l, page, a).0, m), page, b).0.timesSinceLastCheck
         == DragAll(l, page, a + b).0.timesSinceLastCheck
    decreases |a|
  {
    if |a| > 0 {
      var l1 := Drag(l, page, a[0]).0;
      CounterCarriesOver(l1, page, a[1..], m, b);
      assert (a + b)[1..] == a[1..] + b;
    } else {
      assert a + b == b;
    }
  }
}

=== FILE: moves.dfy ===
/** The squeeze strategies and the cascading move: moving a widget onto an
    occupied cell pushes the occupant to the cell its strategy picks, which
    may push a further occupant, and so on until an empty cell is reached. */
module Moves {
  import opened Wrappers
  import opened Positions
  import opened Grid

  /** Scans depths d, d-1, ..., 0 of a lane for an empty cell, as the loops
      of `isRoomAbove` and `isRoomToLeft` do. Its meaning is `RoomFromSpec`;
      it is kept free of quantified contracts so that proofs about cascades,
      which mention it at every step, stay small. */
  function RoomFrom(t: Table, a: Axis, lane: int, d: int): bool
    decreases if d < 0 then 0 else d + 1
  {
    if d < 0 then false
    else if IsCellEmpty(t, At(a, lane, d)) then true
    else RoomFrom(t, a, lane, d - 1)
  }

  /** The scan finds room exactly when some cell at depth 0..d is empty. */
  lemma {:induction false} RoomFromSpec(t: Table, a: Axis, lane: int, d: int)
    ensures RoomFrom(t, a, lane, d) <==> exists k :: 0 <= k <= d && IsCellEmpty(t, At(a, lane, k))
    decreases if d < 0 then 0 else d + 1
  {
    if d >= 0 {
      RoomFromSpec(t, a, lane, d - 1);
      if !IsCellEmpty(t, At(a, lane, d)) {
        if exists k :: 0 <= k <= d && IsCellEmpty(t, At(a, lane, k)) {
          var k :| 0 <= k <= d && IsCellEmpty(t, At(a, lane, k));
          assert k < d;
        }
      }
    }
  }

  /** `isRoomAbove` (vertical) and `isRoomToLeft` (horizontal): some cell of
      the grid strictly before `p` in its lane is empty (`IsRoomBeforeSpec`).
      Room implies `p` is not at depth 0. */
  function IsRoomBefore(t: Table, a: Axis, p: Position): (b: bool)
    ensures b ==> Depth(a, p) >= 1
  {
    RoomFrom(t, a, Lane(a, p), Depth(a, p) - 1)
  }

  lemma IsRoomBeforeSpec(t: Table, a: Axis, p: Position)
    ensures IsRoomBefore(t, a, p) <==> exists k :: 0 <= k < Depth(a, p) && IsCellEmpty(t, At(a, Lane(a, p), k))
  {
    RoomFromSpec(t, a, Lane(a, p), Depth(a, p) - 1);
  }

  function IsRoomAbove(t: Table, p: Position): (b: bool)
    ensures b <==> exists r :: 0 <= r < p.row && IsCellEmpty(t, Position(r, p.col))
    ensures b ==> p.row >= 1
  {
    IsRoomBeforeSpec(t, Vertical, p);
    assert forall k :: At(Vertical, p.col, k) == Position(k, p.col);
    IsRoomBefore(t, Vertical, p)
  }

  function IsRoomToLeft(t: Table, p: Position): (b: bool)
    ensures b <==> exists c :: 0 <= c < p.col && IsCellEmpty(t, Position(p.row, c))
    ensures b ==> p.col >= 1
  {
    IsRoomBeforeSpec(t, Horizontal, p);
    assert forall k :: At(Horizontal, p.row, k) == Position(p.row, k);
    IsRoomBefore(t, Horizontal, p)
  }

  /** The axis a one-directional strategy works along. */
  function AxisOf(s: SqueezeStrategy): Axis
    requires s != Swap
  {
    if s == OnlyVertical then Vertical else Horizontal
  }

  /** `getSqueezedToPosition`: where the occupant of `newPos` goes when a
      widget coming from `oldPos` is moved onto it. */
  function SqueezedTo(t: Table, s: SqueezeStrategy, oldPos: Position, newPos: Position): (q: Position)
    ensures NonNegative(oldPos) && NonNegative(newPos) ==> NonNegative(q)
  {
    match s
    case OnlyVertical => if IsRoomBefore(t, Vertical, newPos) then SubtractRow(newPos) else AddRow(newPos)
    case OnlyHorizontal => if IsRoomBefore(t, Horizontal, newPos) then SubtractCol(newPos) else AddCol(newPos)
    case Swap => oldPos
  }

  /** Swap sends the occupant to the vacated cell; the vertical strategy
      sends it one row up exactly when some cell above is empty, and one row
      down otherwise; the horizontal strategy is the same along the row. */
  lemma SqueezedToSpec(t: Table, s: SqueezeStrategy, oldPos: Position, newPos: Position)
    ensures s == Swap ==> SqueezedTo(t, s, oldPos, newPos) == oldPos
    ensures s == OnlyVertical ==>
      var q := SqueezedTo(t, s, oldPos, newPos);
      q.col == newPos.col &&
      (q.row == newPos.row - 1 <==> exists r :: 0 <= r < newPos.row && IsCellEmpty(t, Position(r, newPos.col))) &&
      (q.row == newPos.row - 1 || q.row == newPos.row + 1)
    ensures s == OnlyHorizontal ==>
      var q := SqueezedTo(t, s, oldPos, newPos);
      q.row == newPos.row &&
      (q.col == newPos.col - 1 <==> exists c :: 0 <= c < newPos.col && IsCellEmpty(t, Position(newPos.row, c))) &&
      (q.col == newPos.col - 1 || q.col == newPos.col + 1)
  {
    if s == OnlyVertical {
      assert IsRoomBefore(t, Vertical, newPos) == IsRoomAbove(t, newPos);
    } else if s == OnlyHorizontal {
      assert IsRoomBefore(t, Horizontal, newPos) == IsRoomToLeft(t, newPos);
    }
  }

  /** The one-directional strategies, stated along their axis. */
  lemma SqueezeAlongAxis(t: Table, s: SqueezeStrategy, oldPos: Position, newPos: Position)
    requires s != Swap
    ensures SqueezedTo(t, s, oldPos, newPos) ==
      if IsRoomBefore(t, AxisOf(s), newPos) then Back(AxisOf(s), newPos) else Forward(AxisOf(s), newPos)
  {
  }

  // ---------------------------------------------------------------------
  // The cascading move
  // ---------------------------------------------------------------------

  /** The table after the first three steps of `moveWidget`: grow the grid to
      hold `newPos`, take `w` out of the grid, and set it at `newPos`. */
  function Placed(t: Table, w: Item, newPos: Position): (r: Table)
    requires NonNegative(newPos)
    ensures newPos in r.cells && r.cells[newPos] == w && w in r.index && r.index[w] == newPos
    ensures IsCellPresent(r, newPos) && r.rows >= t.rows && r.cols >= t.cols
    ensures r.config == t.config && r.shadow == t.shadow && r.dragged == t.dragged
  {
    var t2 := RemoveWithoutCompacting(EnsurePositionExists(t, newPos), w).0;
    SetWidget(t2, w, newPos)
  }

  /** The occupant of `newPos` that the move of `w` displaces, if any. */
  function Displaced(t: Table, w: Item, newPos: Position): Option<Item>
    requires NonNegative(newPos)
  {
    var t2 := RemoveWithoutCompacting(EnsurePositionExists(t, newPos), w).0;
    Occupant(t2, newPos)
  }

  /** Placing keeps the table well-formed. */
  lemma PlacedKeepsWF(t: Table, w: Item, newPos: Position)
    requires WF(t) && NonNegative(newPos)
    ensures WF(Placed(t, w, newPos))
  {
    var t1 := EnsurePositionExists(t, newPos);
    EnsureIsResize(t, newPos);
    RemoveWithoutCompactingSpec(t1, w);
    SetWidgetFrame(RemoveWithoutCompacting(t1, w).0, w, newPos);
  }

  /** `moveWidget(widget, oldPosition, newPosition)`. The cascade is bounded
      by `fuel`; `None` means the cascade did not reach an empty cell within
      that many moves. */
  function MoveWidget(t: Table, w: Item, oldPos: Position, newPos: Position, fuel: nat): (r: Option<Table>)
    requires NonNegative(oldPos) && NonNegative(newPos)
    ensures r.Some? ==> r.value.rows >= t.rows && r.value.cols >= t.cols && IsCellPresent(r.value, newPos)
    ensures r.Some? ==> r.value.config == t.config && r.value.shadow == t.shadow && r.value.dragged == t.dragged
    decreases fuel, 0
  {
    if fuel == 0 then None
    else PushAway(Placed(t, w, newPos), Displaced(t, w, newPos), oldPos, newPos, fuel - 1)
  }

  /** The end of `moveWidget`: the occupant `w` displaced from `newPos`, if
      any, is moved on to where the strategy squeezes it, given that the
      moved widget came from `oldPos`. */
  function PushAway(t: Table, displaced: Option<Item>, oldPos: Position, newPos: Position, fuel: nat): (r: Option<Table>)
    requires NonNegative(oldPos) && NonNegative(newPos)
    ensures r.Some? ==> r.value.rows >= t.rows && r.value.cols >= t.cols
    ensures r.Some? ==> r.value.config == t.config && r.value.shadow == t.shadow && r.value.dragged == t.dragged
    decreases fuel, 1
  {
    match displaced
    case None => Some(t)
    case Some(u) => MoveWidget(t, u, newPos, SqueezedTo(t, t.config.strategy, oldPos, newPos), fuel)
  }

  /** Every table a move produces is well-formed again. */
  lemma {:induction false} MoveKeepsWF(t: Table, w: Item, oldPos: Position, newPos: Position, fuel: nat)
    requires WF(t) && NonNegative(oldPos) && NonNegative(newPos)
    ensures MoveWidget(t, w, oldPos, newPos, fuel).Some? ==> WF(MoveWidget(t, w, oldPos, newPos, fuel).value)
    decreases fuel
  {
    if fuel > 0 {
      var t3 := Placed(t, w, newPos);
      PlacedKeepsWF(t, w, newPos);
      match Displaced(t, w, newPos)
      case None =>
      case Some(u) =>
        var q := SqueezedTo(t3, t3.config.strategy, oldPos, newPos);
        MoveKeepsWF(t3, u, newPos, q, fuel - 1);
    }
  }

  /** Enough moves for any cascade the three strategies can start. */
  function MoveFuel(t: Table, newPos: Position): nat {
    (if newPos.row >= t.rows then newPos.row + 1 else t.rows) +
    (if newPos.col >= t.cols then newPos.col + 1 else t.cols) + 2
  }
}

=== FILE: position.dfy ===
/** The coordinate value type of the grid: a row and a column, whose
    equality and hash code go through the "(row,col)" string form. */
module Positions {

  datatype Position = Position(row: int, col: int)

  /** The argument of `equals(Object)`: null, a Position, or any other object. */
  datatype Obj = Null | APosition(pos: Position) | OtherObject(id: nat)

  function AddRow(p: Position): (q: Position)
    ensures q.row == p.row + 1 && q.col == p.col
  {
    Position(p.row + 1, p.col)
  }

  function SubtractRow(p: Position): (q: Position)
    ensures q.row == p.row - 1 && q.col == p.col
  {
    Position(p.row - 1, p.col)
  }

  function AddCol(p: Position): (q: Position)
    ensures q.row == p.row && q.col == p.col + 1
  {
    Position(p.row, p.col + 1)
  }

  function SubtractCol(p: Position): (q: Position)
    ensures q.row == p.row && q.col == p.col - 1
  {
    Position(p.row, p.col - 1)
  }

  /** The neighbour helpers are mutually inverse, in both orders. */
  lemma NeighboursInverse(p: Position)
    ensures SubtractRow(AddRow(p)) == p && AddRow(SubtractRow(p)) == p
    ensures SubtractCol(AddCol(p)) == p && AddCol(SubtractCol(p)) == p
  {
  }

  /** There is no bounds check: the row above row 0 is row -1. */
  lemma SubtractRowBelowZero(col: int)
    ensures SubtractRow(Position(0, col)).row == -1
  {
  }

  // ---------------------------------------------------------------------
  // Decimal rendering of Java ints, as `"" + i` produces it
  // ---------------------------------------------------------------------

  function DigitChar(d: int): char
    requires 0 <= d < 10
  {
    "0123456789"[d]
  }

  predicate IsDigit(ch: char) {
    '0' <= ch <= '9'
  }

  function DigitValue(ch: char): int {
    ch as int - '0' as int
  }

  function NatToString(n: nat): (s: string)
    ensures |s| > 0
    ensures forall i :: 0 <= i < |s| ==> IsDigit(s[i])
    decreases n
  {
    if n < 10 then [DigitChar(n)] else NatToString(n / 10) + [DigitChar(n % 10)]
  }

  function IntToString(i: int): (s: string)
    ensures forall k :: 0 <= k < |s| ==> IsDigit(s[k]) || s[k] == '-'
  {
    if i < 0 then "-" + NatToString(-i) else NatToString(i)
  }

  /** Reads back a string of decimal digits. */
  function ParseNat(s: string): int
    decreases |s|
  {
    if |s| == 0 then 0 else ParseNat(s[..|s| - 1]) * 10 + DigitValue(s[|s| - 1])
  }

  function ParseInt(s: string): int {
    if |s| > 0 && s[0] == '-' then -ParseNat(s[1..]) else ParseNat(s)
  }

  lemma {:induction false} ParseNatRoundTrip(n: nat)
    ensures ParseNat(NatToString(n)) == n
    decreases n
  {
    var s := NatToString(n);
    if n < 10 {
      assert s == [DigitChar(n)];
      assert s[..0] == [];
    } else {
      ParseNatRoundTrip(n / 10);
      assert s[..|s| - 1] == NatToString(n / 10);
    }
  }

  lemma ParseIntRoundTrip(i: int)
    ensures ParseInt(IntToString(i)) == i
  {
    if i < 0 {
      ParseNatRoundTrip(-i);
      assert IntToString(i)[1..] == NatToString(-i);
    } else {
      ParseNatRoundTrip(i);
      assert IntToString(i)[0] != '-';
    }
  }

  // ---------------------------------------------------------------------
  // toString, equals and hashCode
  // ---------------------------------------------------------------------

  function ToString(p: Position): (s: string)
    ensures |s| >= 5 && s[0] == '(' && s[|s| - 1] == ')'
  {
    "(" + IntToString(p.row) + "," + IntToString(p.col) + ")"
  }

  /** Index of the first comma in `s`, or |s| when there is none. */
  function FirstComma(s: string): (k: nat)
    ensures k <= |s|
    ensures k < |s| ==> s[k] == ','
    ensures forall i :: 0 <= i < k ==> s[i] != ','
    decreases |s|
  {
    if |s| == 0 then 0 else if s[0] == ',' then 0 else 1 + FirstComma(s[1..])
  }

  /** Reads a position back from its "(row,col)" form. */
  function ParsePosition(s: string): Position
  {
    var k := FirstComma(s);
    if 1 <= k && |s| >= 1 && k + 1 <= |s| - 1 then
      Position(ParseInt(s[1..k]), ParseInt(s[k + 1..|s| - 1]))
    else
      Position(0, 0)
  }

  lemma {:induction false} ToStringRoundTrip(p: Position)
    ensures ParsePosition(ToString(p)) == p
  {
    var a := IntToString(p.row);
    var b := IntToString(p.col);
    var s := ToString(p);
    assert s == "(" + a + "," + b + ")";
    assert s[1 + |a|] == ',';
    forall i | 0 <= i < 1 + |a|
      ensures s[i] != ','
    {
      if i > 0 {
        assert s[i] == a[i - 1];
      }
    }
    assert FirstComma(s) == 1 + |a|;
    assert s[1..1 + |a|] == a;
    assert s[2 + |a|..|s| - 1] == b;
    ParseIntRoundTrip(p.row);
    ParseIntRoundTrip(p.col);
  }

  /** The "(row,col)" form is injective. */
  lemma ToStringInjective(p: Position, q: Position)
    ensures ToString(p) == ToString(q) <==> p == q
  {
    if ToString(p) == ToString(q) {
      ToStringRoundTrip(p);
      ToStringRoundTrip(q);
    }
  }

  /** `equals(Object)`: identity first, then null, then the class test, then
      the comparison of the two string forms. */
  function Equals(p: Position, o: Obj): bool
  {
    match o
    case Null => false
    case OtherObject(_) => false
    case APosition(q) => p == q || ToString(p) == ToString(q)
  }

  /** Two positions are equal exactly when their rows and their columns agree. */
  lemma EqualsIffSameCoordinates(p: Position, q: Position)
    ensures Equals(p, APosition(q)) <==> p.row == q.row && p.col == q.col
  {
    ToStringInjective(p, q);
  }

  lemma EqualsReflexive(p: Position)
    ensures Equals(p, APosition(p))
    ensures !Equals(p, Null)
    ensures forall id: nat :: !Equals(p, OtherObject(id))
  {
  }

  /** Java's 32-bit signed wrap-around of an int expression. */
  function WrapInt32(x: int): (r: int)
    ensures -0x8000_0000 <= r < 0x8000_0000
    ensures (r - x) % 0x1_0000_0000 == 0
  {
    var m := x % 0x1_0000_0000;
    if m >= 0x8000_0000 then m - 0x1_0000_0000 else m
  }

  /** `String.hashCode`: h = 31 * h + ch over the characters, in int arithmetic. */
  function StringHash(s: string): int
    decreases |s|
  {
    if |s| == 0 then 0 else WrapInt32(31 * StringHash(s[..|s| - 1]) + s[|s| - 1] as int)
  }

  function HashCode(p: Position): (h: int)
    ensures -0x8000_0000 <= h < 0x8000_0000
  {
    StringHash(ToString(p))
  }

  /** Equal positions have equal hash codes: the equals/hashCode contract.
      It follows by unfolding, since both `Equals` and `HashCode` read only
      the "(row,col)" string; it is kept as the statement of that contract. */
  lemma EqualsImpliesSameHash(p: Position, q: Position)
    requires Equals(p, APosition(q))
    ensures HashCode(p) == HashCode(q)
  {
    EqualsIffSameCoordinates(p, q);
  }
}

=== FILE: trimming.dfy ===
/** Trimming the fringes: `removeEmptyRowsFromBottom` and
    `removeEmptyColumnsFromRight` drop the empty rows (columns) at the end of
    the grid, stopping at the first one that holds a widget and never going
    below the configured minimum. Both are one rule along an `Axis`: a line
    of the vertical axis is a row, a line of the horizontal axis a column. */
module Trimming {
  import opened Grid

  /** No cell of line `d` (row `d` on the vertical axis, column `d` on the
      horizontal one) holds a widget: `isRowEmpty` / `isColEmpty`. */
  predicate LineEmpty(t: Table, a: Axis, d: int) {
    forall l :: 0 <= l < Breadth(t, a) ==> At(a, l, d) !in t.cells
  }

  /** A line that holds a widget still does after the grid is cut down
      around the same cells. */
  lemma OccupiedLineKept(t: Table, r: Table, a: Axis, d: int)
    requires WF(r) && r.cells == t.cells && !LineEmpty(t, a, d)
    ensures !LineEmpty(r, a, d)
  {
    var l :| 0 <= l < Breadth(t, a) && At(a, l, d) in t.cells;
    PresentAlongAxis(r, a, At(a, l, d));
  }

  /** `isRowEmpty` / `isColEmpty`: scan the line cell by cell. */
  method IsLineEmpty(t: Table, a: Axis, d: int) returns (b: bool)
    requires 0 <= d < Extent(t, a)
    ensures b <==> LineEmpty(t, a, d)
  {
    var l := 0;
    while l < Breadth(t, a)
      invariant 0 <= l <= Breadth(t, a)
      invariant forall j :: 0 <= j < l ==> At(a, j, d) !in t.cells
    {
      PresentAlongAxis(t, a, At(a, l, d));
      if At(a, l, d) in t.cells {
        return false;
      }
      l := l + 1;
    }
    return true;
  }

  /** The trimmed extent `e` of a table with extent `n`: the lines `e`..`n-1`
      are empty, and either nothing more could be dropped without going
      below `min`, or line `e - 1` holds a widget. */
  predicate TrimmedTo(t: Table, a: Axis, min: nat, n: nat, e: nat) {
    && e <= n
    && (n >= min ==> e >= min)
    && (n < min ==> e == n)
    && (forall d :: e <= d < n ==> LineEmpty(t, a, d))
    && (e > min && e > 0 ==> !LineEmpty(t, a, e - 1))
  }

  /** There is one trimmed extent only: the rule above fixes `e`. */
  lemma TrimmedToUnique(t: Table, a: Axis, min: nat, n: nat, e1: nat, e2: nat)
    requires TrimmedTo(t, a, min, n, e1) && TrimmedTo(t, a, min, n, e2)
    ensures e1 == e2
  {
    assert e1 < e2 ==> LineEmpty(t, a, e2 - 1);
    assert e2 < e1 ==> LineEmpty(t, a, e1 - 1);
  }

  /** Dropping lines that hold no widget leaves the cells as they were. */
  lemma ResizeDropsNothing(t: Table, a: Axis, e: nat)
    requires WF(t) && e <= Extent(t, a)
    requires forall d :: e <= d < Extent(t, a) ==> LineEmpty(t, a, d)
    ensures ResizeAlong(t, a, e).cells == t.cells
  {
    var r := ResizeAlong(t, a, e);
    forall p | p in t.cells
      ensures p in r.cells
    {
      PresentAlongAxis(t, a, p);
      AtOfCoordinates(a, p);
      assert Depth(a, p) >= e ==> !LineEmpty(t, a, Depth(a, p));
    }
  }

  /** `removeEmptyRowsFromBottom` (vertical) and `removeEmptyColumnsFromRight`
      (horizontal): count the empty lines from the end, down to the minimum,
      and resize once if there are any. Only empty lines go, so the cells,
      the map and the table's well-formedness are unchanged. */
  method RemoveEmptyFringe(t0: Table, a: Axis) returns (t: Table)
    requires WF(t0)
    ensures WF(t) && TrimmedTo(t0, a, MinExtent(t0, a), Extent(t0, a), Extent(t, a))
    ensures Breadth(t, a) == Breadth(t0, a) && t.cells == t0.cells && t.index == t0.index
    ensures t.config == t0.config && t.shadow == t0.shadow && t.dragged == t0.dragged
  {
    var n: int := Extent(t0, a);
    var min: int := MinExtent(t0, a);
    var toRemove := 0;
    var d := n - 1;
    while d >= min
      invariant d == n - 1 - toRemove && 0 <= toRemove <= n
      invariant d >= min - 1 || toRemove == 0
      invariant forall j :: d < j < n ==> LineEmpty(t0, a, j)
    {
      var empty := IsLineEmpty(t0, a, d);
      if !empty {
        break;
      }
      toRemove := toRemove + 1;
      d := d - 1;
    }
    if toRemove > 0 {
      ResizeDropsNothing(t0, a, n - toRemove);
      t := ResizeAlong(t0, a, n - toRemove);
    } else {
      t := t0;
    }
  }

  /** `removeEmptyRowsAndColumnsFromFringes`: rows first, then columns. */
  method RemoveEmptyRowsAndColumnsFromFringes(t0: Table) returns (t: Table)
    requires WF(t0)
    ensures WF(t) && t.cells == t0.cells && t.index == t0.index
    ensures t.config == t0.config && t.shadow == t0.shadow && t.dragged == t0.dragged
    ensures TrimmedTo(t0, Vertical, t0.config.minRows, t0.rows, t.rows)
    ensures TrimmedTo(t0.(rows := t.rows), Horizontal, t0.config.minCols, t0.cols, t.cols)
    ensures AtLeastMinimum(t0) ==> AtLeastMinimum(t)
    ensures t.rows > t0.config.minRows ==> !LineEmpty(t, Vertical, t.rows - 1)
    ensures t.cols > t0.config.minCols ==> !LineEmpty(t, Horizontal, t.cols - 1)
  {
    var t1 := RemoveEmptyFringe(t0, Vertical);
    t := RemoveEmptyFringe(t1, Horizontal);
    assert t1 == t0.(rows := t1.rows);
    if t.rows > t0.config.minRows {
      OccupiedLineKept(t1, t, Vertical, t.rows - 1);
    }
  }
}

=== FILE: wrappers.dfy ===
/** Option and Result types standing in for Java's nullable references and
    for the exceptions the Java code throws. */
module Wrappers {

  /** A nullable reference: `None` plays the part of Java's `null`. */
  datatype Option<+T> = None | Some(value: T)

  /** The outcome of an operation that throws in the Java code: `Failure`
      names the exception. */
  datatype Result<+T, +E> = Success(value: T) | Failure(error: E)
}
